=== FILE: README.md ===
# CineMatch recommendation core in Dafny

CineMatch recommends movies by linear algebra. The API (`cine-match-api`)
builds a vector for every movie in its catalog:
- one slot per genre that occurs in the catalog, sorted by name, holding 1 or 0;
- one last slot holding `rating / 10`.

It then ranks the catalog against a query vector in one of four modes:
- **title**: the vector of a named movie;
- **mood**: a vector of genre weights;
- **taste profile**: the mean of the vectors of several chosen movies;
- **fusion**: a blend of two movies' vectors.

Ranking uses cosine similarity, or one of two distances turned into a
score by `1 / (1 + d)`. It sorts the scores in non-increasing order and
keeps the first `limit`.

Around the ranking there are:
- the request validators;
- the error handlers, which map an error's message to an HTTP error code;
- two state helpers of the web client (`cine-match-web`): the liked-movies toggle and the mood-genre toggle.

The model is functional. Vectors are `seq<real>` and the catalog is an
immutable value. Every operation is a function, or a method where the
source loops. The source's thrown errors become `Result` values that
carry an `Error`. `Error.Message()` reproduces the source's error text
character for character, so the error-handler model classifies the very
messages the validators and services produce.

Modules and files:

| module | file | models |
|---|---|---|
| `Wrappers` | wrappers.dfy | `Option`, `Result` |
| `SeqUtil` | seq_util.dfy | `Math.min`/`Math.max`, `indexOf` |
| `Strings` | strings.dfy | `includes`, `toLowerCase`, `trim`, `parseInt(s, 10)`, `String(n)`, string sort order |
| `JsValues` | js_values.dfy | a JavaScript number (`NaN` or finite) and an arbitrary input value |
| `Records` | records.dfy | objects used as `Record<string, V>` in insertion order: read, set, `delete` |
| `Errors` | errors.dfy | every error the core throws, with its exact message |
| `LinearAlgebra` | linear_algebra.dfy | `LinearAlgebraService` |
| `SimilarityCalculator` | similarity_calculator.dfy | `SimilarityCalculatorService` |
| `MovieService` | movie_service.dfy | vector building, genre dimensions, catalog vectorisation |
| `Ranking` | ranking.dfy | `sort((a, b) => b.score - a.score).slice(0, limit)` |
| `RecommendationService` | recommendation_service.dfy | the four recommendation modes |
| `Validation` | validation.dfy | `validation.util.ts` |
| `ErrorHandler` | error_handler.dfy | `error-handler.util.ts` |
| `AppContext` | app_context.dfy | `toggleLikedMovie`, `isMovieLiked` |
| `ControlsPanel` | controls_panel.dfy | `toggleGenre`, `updateWeight` |

**Square root.** `Math.sqrt` is a parameter `sqrt: real -> real`. It is
constrained by `IsSqrt(sqrt)`: for every `x >= 0`, `sqrt(x) >= 0` and
`sqrt(x) * sqrt(x) == x`. Every fact about magnitudes, cosines and
Euclidean distances holds for any such function.

**How the modes score.**
- The modes call `LinearAlgebraService` directly, not
  `SimilarityCalculatorService` (`recommendation.service.ts:53-73`,
  `106-123`, `175`, `216`). So mode scores are not clamped, and a metric
  other than `euclidean` or `manhattan` scores as cosine.
  `RecommendationService.ScoreByAgainstCalculator` states the exact
  relation between the two.
- The taste mode has no length check on the selected vectors
  (`recommendation.service.ts:154-168`). `Catalog.Consistent()`, which
  `LoadCatalog` establishes, gives every catalog vector the same length,
  so none is needed.
- Every mode filters the catalog, keeping catalog order, and then sorts
  the scores with the stable `Array.prototype.sort`. Equal scores
  therefore keep catalog order. `RankedAgainst` states this by requiring
  each mode's result to be a prefix of `Ranking.SortByScore` applied to
  the scored candidates in catalog order.

## Model

| member | source | states |
|---|---|---|
| LinearAlgebra.DotProduct | cine-match-api/src/math/linear-algebra.service.ts:10-20 | Different lengths fail with the dimension error and never yield a partial sum; equal lengths give Σ aᵢ·bᵢ |
| LinearAlgebra.DotSymmetric | cine-match-api/src/math/linear-algebra.service.ts:15-19 | The dot product does not depend on the order of its arguments |
| LinearAlgebra.DotExample | cine-match-api/src/math/algebra.service.spec.ts:16-21 | [1,2,3]·[4,5,6] = 32 |
| LinearAlgebra.Magnitude | cine-match-api/src/math/linear-algebra.service.ts:27-33 | The magnitude is non-negative and its square is the vector's dot product with itself |
| LinearAlgebra.Norm | cine-match-api/src/math/linear-algebra.service.ts:27-33 | The norm is the non-negative square root of Σ vᵢ² |
| LinearAlgebra.NormZero | cine-match-api/src/math/linear-algebra.service.ts:27-33 | The magnitude is 0 exactly for the empty or all-zero vector |
| LinearAlgebra.NormExample | cine-match-api/src/math/algebra.service.spec.ts:24-27 | magnitude([3,4]) = 5 |
| LinearAlgebra.DotSelfZero | cine-match-api/src/math/linear-algebra.service.ts:27-31 | A vector's sum of squares is 0 exactly when every component is 0 |
| LinearAlgebra.CosineSimilarity | cine-match-api/src/math/linear-algebra.service.ts:41-52 | Different lengths fail with the dotProduct error; otherwise the result is the cosine |
| LinearAlgebra.CosZeroFallback | cine-match-api/src/math/linear-algebra.service.ts:46-49 | If either vector has magnitude 0, the cosine is exactly 0 and nothing is divided |
| LinearAlgebra.CosSelf | cine-match-api/src/math/algebra.service.spec.ts:29-33 | A non-zero vector has cosine similarity 1 with itself |
| LinearAlgebra.CosOrthogonal | cine-match-api/src/math/linear-algebra.service.ts:51 | Vectors with dot product 0 have cosine 0 |
| LinearAlgebra.CosOrthogonalExample | cine-match-api/src/math/algebra.service.spec.ts:35-40 | [1,0] and [0,1] have cosine 0 |
| LinearAlgebra.CosSymmetric | cine-match-api/src/math/linear-algebra.service.ts:41-52 | Cosine similarity is symmetric |
| LinearAlgebra.CosNonNegative | cine-match-api/src/math/linear-algebra.service.ts:41-52 | The cosine of two component-wise non-negative vectors, such as genre one-hot vectors with a non-negative rating, is non-negative |
| LinearAlgebra.EuclideanDistance | cine-match-api/src/math/linear-algebra.service.ts:59-66 | The distance is non-negative and its square is Σ (aᵢ−bᵢ)² |
| LinearAlgebra.EuclidProperties | cine-match-api/src/math/linear-algebra.service.ts:59-66 | The Euclidean distance is ≥ 0, symmetric, and 0 exactly on identical vectors |
| LinearAlgebra.ManhattanDistance | cine-match-api/src/math/linear-algebra.service.ts:73-79 | The result is the Manhattan distance and is non-negative |
| LinearAlgebra.ManhattanProperties | cine-match-api/src/math/linear-algebra.service.ts:73-79 | The Manhattan distance is ≥ 0, symmetric, and 0 exactly on identical vectors |
| LinearAlgebra.DiffSwap | cine-match-api/src/math/linear-algebra.service.ts:61-63 | Swapping the operands does not change Σ (aᵢ−bᵢ)² or Σ abs(aᵢ−bᵢ) |
| SimilarityCalculator.Clamp | cine-match-api/src/recommendation/similarity-calculator.service.ts:75-78 | The result is in [0,1]; values inside are kept, values below become 0, values above become 1 |
| SimilarityCalculator.DistanceScoreRange | cine-match-api/src/recommendation/similarity-calculator.service.ts:58 | 1/(1+d) lies in (0,1]; it is 1 exactly when d = 0; the clamp does not change it |
| SimilarityCalculator.DistanceScoreAntitone | cine-match-api/src/recommendation/similarity-calculator.service.ts:68 | A larger distance never gives a higher score |
| SimilarityCalculator.CalculateSimilarity | cine-match-api/src/recommendation/similarity-calculator.service.ts:29-80 | The metric defaults to `cosine`. An empty vector scores 0 with no error. Non-empty vectors of different lengths fail with the mismatch error naming both lengths. An unknown metric fails. Success happens exactly in the other cases, with a score in [0,1], the requested metric, and the clamped cosine or 1/(1+distance) |
| SimilarityCalculator.CalculateBatchSimilarity | cine-match-api/src/recommendation/similarity-calculator.service.ts:91-99 | The metric defaults to `cosine`. Success iff every pair succeeds; then the length equals the number of candidates and element i is the single-pair result; otherwise the error is the first failing pair's |
| SimilarityCalculator.IdenticalVectorsScoreOne | cine-match-api/src/recommendation/similarity-calculator.service.ts:51-69 | Identical non-empty vectors score exactly 1 under every metric (non-zero for cosine) |
| SimilarityCalculator.CalculateSimilaritySymmetric | cine-match-api/src/recommendation/similarity-calculator.service.ts:29-80 | For equal lengths the result does not depend on the order of the two vectors |
| MovieService.CreateVector | cine-match-api/src/movie/movie.service.ts:41-53 | The length is dimensions + 1. The last slot is rating/10 (0 by default). Slot i is 1 exactly when some listed genre's `indexOf` is i, and 0 otherwise. Over duplicate-free dimensions the result equals the reference one-hot vector |
| MovieService.MarksIffMember | cine-match-api/src/movie/movie.service.ts:44-47 | Over duplicate-free dimensions, slot i is marked exactly when its genre is listed: binary, even for repeated genres |
| MovieService.UnknownGenreIgnored | cine-match-api/src/movie/movie.service.ts:45-46 | A genre outside the dimensions does not change the vector |
| MovieService.GenreVectorDependsOnSet | cine-match-api/src/movie/movie.service.ts:44-47 | The vector depends only on the set of listed genres, not on their order or repetition |
| MovieService.CreateWeightedVector | cine-match-api/src/movie/movie.service.ts:56-65 | The length is dimensions + 1 and the last slot is 0.8. A dimension's slot holds its weight (0 if none) at its first occurrence, other slots are 0. Over duplicate-free dimensions the result equals the reference weight vector |
| MovieService.UnknownWeightIgnored | cine-match-api/src/movie/movie.service.ts:59-60 | A weight for a genre outside the dimensions does not change the mood vector |
| MovieService.InsertGenre | cine-match-api/src/movie/movie.service.ts:110 | Adding a genre to the sorted duplicate-free set keeps it so and adds exactly that genre |
| MovieService.GenreDimensions | cine-match-api/src/movie/movie.service.ts:69-131 | The dimensions are strictly sorted (hence duplicate-free) and hold exactly the genres of the accepted rows |
| MovieService.GenreDimensionsUnique | cine-match-api/src/movie/movie.service.ts:131 | Any strictly sorted list of exactly those genres is the dimension list |
| MovieService.LoadCatalog | cine-match-api/src/movie/movie.service.ts:129-140 | The catalog is consistent; it has one movie per row, in order; each movie is its row with the one-hot vector against the final dimensions |
| MovieService.CatalogVectors | cine-match-api/src/movie/movie.service.ts:134-140 | Every genre of a row is a dimension; a catalog slot is 1 exactly when the row lists that genre and 0 exactly when it does not; the last slot is rating/10 |
| Ranking.InsertSorted | cine-match-api/src/recommendation/recommendation.service.ts:83 | Inserting into a non-increasing list keeps it non-increasing |
| Ranking.SortByScoreSorted | cine-match-api/src/recommendation/recommendation.service.ts:83 | The sort's result is non-increasing by score |
| Ranking.SortByScorePermutes | cine-match-api/src/recommendation/recommendation.service.ts:83 | The sort's result is a permutation of its input |
| Ranking.SortByScoreStable | cine-match-api/src/recommendation/recommendation.service.ts:83 | Entries with equal scores keep their input order |
| Ranking.StableOrderUnique | cine-match-api/src/recommendation/recommendation.service.ts:83 | Two non-increasing lists that order every score's entries alike are equal, so any conforming stable sort returns this one |
| Ranking.SliceEnd | cine-match-api/src/recommendation/recommendation.service.ts:86 | `slice(0, limit)` stops at min(limit, n) for limit ≥ 0, and a negative limit counts from the end |
| Ranking.Rank | cine-match-api/src/recommendation/recommendation.service.ts:83-86 | The result is non-increasing, has length min(limit, n) for limit ≥ 0, is a prefix of the stable sort, and is drawn from the input |
| Ranking.RankKeepsBest | cine-match-api/src/recommendation/recommendation.service.ts:83-86 | No entry cut off by the limit scores higher than any entry kept |
| RecommendationService.FindTitle | cine-match-api/src/recommendation/recommendation.service.ts:32-34 | None exactly when no title matches case-insensitively; otherwise the first match |
| RecommendationService.Exclude | cine-match-api/src/recommendation/recommendation.service.ts:47 | Keeps exactly the movies whose id is not excluded |
| RecommendationService.ExcludeAppend | cine-match-api/src/recommendation/recommendation.service.ts:47 | The filter distributes over concatenation, so the kept movies stay in catalog order |
| RecommendationService.ExcludeSingle | cine-match-api/src/recommendation/recommendation.service.ts:47 | One movie is kept exactly when its id is not excluded |
| RecommendationService.ExcludeNone | cine-match-api/src/recommendation/recommendation.service.ts:47 | When no movie has an excluded id, the filter returns the catalog unchanged, duplicates included |
| RecommendationService.Selected | cine-match-api/src/recommendation/recommendation.service.ts:145 | Keeps exactly the movies whose id was selected |
| RecommendationService.SelectedAppend | cine-match-api/src/recommendation/recommendation.service.ts:145 | The filter distributes over concatenation, so the selection keeps catalog order and repeated entries, which the centroid counts |
| RecommendationService.SelectedSingle | cine-match-api/src/recommendation/recommendation.service.ts:145 | One movie is selected exactly when its id is among the given ones |
| RecommendationService.RankAgainst | cine-match-api/src/recommendation/recommendation.service.ts:47-86 | The ranking is non-increasing, has length min(limit, #candidates), pairs candidates with their scores, leaves out nothing better than what it keeps, and is a prefix of the stable sort of the candidates in their given order, so ties keep that order |
| RecommendationService.ComputeCentroid | cine-match-api/src/recommendation/recommendation.service.ts:154-168 | Component i times the count is the column sum, so the centroid is the component-wise mean |
| RecommendationService.MeanSingle | cine-match-api/src/recommendation/recommendation.service.ts:154-168 | The centroid of one vector is that vector |
| RecommendationService.MeanCopies | cine-match-api/src/recommendation/recommendation.service.ts:154-168 | The centroid of k copies of a vector is that vector |
| RecommendationService.BlendEndpoints | cine-match-api/src/recommendation/recommendation.service.ts:208-210 | Ratio 1 gives A's vector, ratio 0 gives B's, and blending a vector with itself gives it back |
| RecommendationService.Recommend | cine-match-api/src/recommendation/recommendation.service.ts:23-87 | Fails with the not-found error exactly when no title matches. Otherwise the target is the first match, no result has the target's id, and the result ranks the other movies against the target's vector: non-increasing, at most `limit` long, nothing better left out, and a prefix of the stable sort, so ties keep catalog order |
| RecommendationService.RecommendByGenres | cine-match-api/src/recommendation/recommendation.service.ts:89-133 | The query vector is the weighted vector; every catalog movie is a candidate; the recommendations rank them: non-increasing, at most `limit` long, nothing better left out, and a prefix of the stable sort, so ties keep catalog order |
| RecommendationService.RecommendByTasteProfile | cine-match-api/src/recommendation/recommendation.service.ts:138-184 | Fails with the empty-selection error exactly when no id resolves. Otherwise no result has a selected id, and the result ranks the other movies by cosine against the mean of the selected vectors: a prefix of the stable sort, so ties keep catalog order |
| RecommendationService.TasteSingleSelection | cine-match-api/src/recommendation/recommendation.service.ts:154-168 | With one selected movie the centroid is that movie's vector |
| RecommendationService.RecommendByFusion | cine-match-api/src/recommendation/recommendation.service.ts:186-228 | Fails with the not-found error exactly when either title is missing. Otherwise the fusion vector is a·ratio + b·(1−ratio), both source ids are excluded, and the result ranks the rest by cosine: a prefix of the stable sort, so ties keep catalog order |
| RecommendationService.FusionEndpoints | cine-match-api/src/recommendation/recommendation.service.ts:208-210 | Fusion at ratio 1 uses A's vector and at ratio 0 uses B's |
| RecommendationService.ScoreByAgainstCalculator | cine-match-api/src/recommendation/recommendation.service.ts:53-73 | The mode score equals the calculator's score for the distances and its unclamped value for cosine; an unknown metric fails in the calculator but scores as cosine in the modes |
| Validation.ValidateLimit | cine-match-api/src/common/validation.util.ts:14-22 | The requested value is the parsed integer, or the default when parsing gives NaN or 0. It is kept when it lies in [min, max]; below min it becomes min, above max it becomes max; when min > max the result is max |
| Validation.ValidateLimitMonotonic | cine-match-api/src/common/validation.util.ts:20-21 | A larger positive requested limit never gives a smaller result |
| Validation.ValidateLimitOfText | cine-match-api/src/common/validation.util.ts:20-21 | A decimal numeral n gives the default if n = 0 and n clamped to [1, 50] otherwise |
| Validation.ValidateLimitOfNegativeText | cine-match-api/src/common/validation.util.ts:20-21 | A negative numeral gives the minimum 1; `-0` is falsy and gives the default 12 |
| Validation.ValidateMetric | cine-match-api/src/common/validation.util.ts:29-40 | The result is always one of the three metrics: the lower-cased input if it is one, else `cosine` |
| Validation.ValidateMetricCaseInsensitive | cine-match-api/src/common/validation.util.ts:33-36 | Lower-casing the input first changes nothing, and validating a validated metric returns it |
| Validation.EntryError | cine-match-api/src/common/validation.util.ts:76-86 | A rejected entry raises a validation error |
| Validation.ValidateEntries | cine-match-api/src/common/validation.util.ts:74-91 | Success iff every entry has a non-blank name and a number ≥ 0; then keys and order are kept and each value is the number; otherwise the first bad entry's error |
| Validation.ValidateWeights | cine-match-api/src/common/validation.util.ts:67-92 | A missing or empty map fails with the empty-weights error; otherwise the entries are validated; success means a non-empty map of the same size |
| Validation.ValidateWeightsKeys | cine-match-api/src/common/validation.util.ts:74-91 | On success the keys are exactly the input's, still distinct, and each reads as its input's number |
| Validation.ValidateTitle | cine-match-api/src/common/validation.util.ts:100-111 | A missing or empty title and a blank title fail with their errors; success exactly otherwise, returning `Trim(title)`, which is a non-empty block of the input with no whitespace at either end |
| Validation.ValidateTitleIdempotent | cine-match-api/src/common/validation.util.ts:105-110 | A title that is not blank validates, and validating the result again returns it unchanged |
| Validation.ValidateIdsFrom | cine-match-api/src/common/validation.util.ts:128-134 | Success iff every id is a positive integer; then same length and order; otherwise the first bad id's error with its index |
| Validation.ValidateMovieIds | cine-match-api/src/common/validation.util.ts:119-137 | A non-array and an empty array fail with their errors; success exactly when every entry is a positive integer, keeping length and order; otherwise the first bad entry's index and text |
| Validation.ValidateMovieIdsOfNumbers | cine-match-api/src/common/validation.util.ts:128-136 | A non-empty list of positive whole numbers is returned as those numbers |
| Validation.ValidateRatio | cine-match-api/src/common/validation.util.ts:145-153 | Success exactly for a number in [0,1], returned unchanged; NaN or anything outside fails with the ratio error |
| ErrorHandler.HandleError | cine-match-api/src/common/error-handler.util.ts:7-50 | The not-found phrase gives MOVIE_NOT_FOUND. Otherwise a keyword gives INVALID_INPUT. Otherwise a SyntaxError gives INVALID_JSON. Otherwise a 500 PROCESSING_ERROR whose message is the processing prefix followed by the context. The status is 400 exactly for the first three |
| ErrorHandler.HandleWeightsError | cine-match-api/src/common/error-handler.util.ts:55-66 | Every SyntaxError is INVALID_JSON with the weights message; anything else is handled with context `weights` |
| ErrorHandler.HandleTasteError | cine-match-api/src/common/error-handler.util.ts:71-73 | Classified exactly as by `handleError`; an unclassified error becomes a 500 whose message names the taste profile |
| ErrorHandler.HandleFusionError | cine-match-api/src/common/error-handler.util.ts:78-80 | Classified exactly as by `handleError`; an unclassified error becomes a 500 whose message names the fusion |
| ErrorHandler.SyntaxErrorPrecedence | cine-match-api/src/common/error-handler.util.ts:19-42 | A keyword beats SyntaxError in the general handler, but not in the weights handler |
| ErrorHandler.NotFoundErrorsClassified | cine-match-api/src/common/error-handler.util.ts:11-16 | Both not-found errors of the modes map to MOVIE_NOT_FOUND |
| ErrorHandler.ValidationErrorsHaveKeyword | cine-match-api/src/common/error-handler.util.ts:19-28 | Every validator error message contains one of the keywords |
| ErrorHandler.ValidationErrorsClassified | cine-match-api/src/common/error-handler.util.ts:19-33 | A validator error without the not-found phrase maps to 400 INVALID_INPUT, in the weights handler too |
| ErrorHandler.NotFoundPhraseInGenreWins | cine-match-api/src/common/error-handler.util.ts:11-16 | An invalid weight for a genre named after the not-found phrase is reported as MOVIE_NOT_FOUND |
| ErrorHandler.NoValidSelectionHasNoKeyword | cine-match-api/src/common/error-handler.util.ts:11-28 | The taste mode's empty-selection message has neither the not-found phrase nor a keyword |
| ErrorHandler.NoValidSelectionClassified | cine-match-api/src/common/error-handler.util.ts:71-73 | The taste handler turns the empty-selection error into a 500 PROCESSING_ERROR naming the taste profile |
| AppContext.RemoveId | cine-match-web/src/context/AppContext.tsx:69 | Keeps exactly the entries with another id |
| AppContext.RemoveIdAppend | cine-match-web/src/context/AppContext.tsx:69 | The filter distributes over concatenation, so it keeps the order of the rest |
| AppContext.RemoveIdAbsent | cine-match-web/src/context/AppContext.tsx:69 | Removing an absent id changes nothing |
| AppContext.ToggleLikedMovie | cine-match-web/src/context/AppContext.tsx:65-74 | An absent id is appended at the end. A present id is removed (the list gets shorter). Entries with other ids stay |
| AppContext.IdlessMoviesShareOneSlot | cine-match-web/src/context/AppContext.tsx:65-74 | Movies without an id compare equal, so liking a second one unlikes the first and empties the list |
| AppContext.TogglePresent | cine-match-web/src/context/AppContext.tsx:67-69 | Toggling a present id is the filter |
| AppContext.ToggleTwiceRestores | cine-match-web/src/context/AppContext.tsx:67-71 | Toggling the same absent movie twice restores the list |
| AppContext.IsMovieLiked | cine-match-web/src/context/AppContext.tsx:76-79 | A missing id is never liked; otherwise liked exactly when some entry has that id |
| AppContext.ToggleFlipsLiked | cine-match-web/src/context/AppContext.tsx:65-79 | A toggle flips whether the movie is liked and leaves every other id's answer alone |
| ControlsPanel.ToggleGenre | cine-match-web/src/components/ControlsPanel.tsx:37-42 | A truthy weight removes the genre. An absent or falsy one (0, NaN) sets it to 5. Every other genre reads as before and keys stay distinct |
| ControlsPanel.ToggleGenreTwiceRestores | cine-match-web/src/components/ControlsPanel.tsx:38-40 | Selecting then unselecting an absent genre gives the original map back |
| ControlsPanel.ToggleGenreTwiceResets | cine-match-web/src/components/ControlsPanel.tsx:38-40 | Unselecting then reselecting a genre resets it to 5 and moves it to the end |
| ControlsPanel.SliderWeight | cine-match-web/src/components/ControlsPanel.tsx:45 | `parseInt` of the slider text is NaN exactly when there are no digits, and otherwise an integer |
| ControlsPanel.UpdateWeight | cine-match-web/src/components/ControlsPanel.tsx:44-46 | Only the genre's value changes, to the parsed text. An existing key keeps its place, a new key goes last |
| ControlsPanel.SliderKeepsSelected | cine-match-web/src/components/ControlsPanel.tsx:44-46 | A slider position 1–10 reads back as that number, so the genre stays selected and the next toggle removes it |
| Records.SetGet | cine-match-web/src/components/ControlsPanel.tsx:45 | `{ ...r, [k]: v }` reads v at k and as before everywhere else |
| Records.DeleteGet | cine-match-web/src/components/ControlsPanel.tsx:39 | After `delete`, the key is absent and every other key reads as before |
| Records.DeleteAfterAdd | cine-match-web/src/components/ControlsPanel.tsx:39-40 | Deleting a key just added to a map without it restores the map |
| Strings.ParseIntOfNatToString | cine-match-api/src/common/validation.util.ts:20 | `parseInt` reads back a printed natural number, with or without a minus sign |
| Strings.Trim | cine-match-api/src/common/validation.util.ts:105-106 | Empty exactly for an all-whitespace string; otherwise it starts and ends with a non-space character |
| Strings.TrimIdempotent | cine-match-api/src/common/validation.util.ts:105 | Trimming twice is trimming once |
| Strings.LowerIdempotent | cine-match-api/src/common/validation.util.ts:33 | Lower-casing twice is lower-casing once |
| Strings.StrictlySortedUnique | cine-match-api/src/movie/movie.service.ts:131 | Two strictly sorted lists with the same elements are equal |

## Left out

- `Math.sqrt` is a parameter constrained by `IsSqrt`, not a definition; the lemmas hold for every exact square root.
- IEEE-754 doubles: numbers are exact reals. Rounding, `Infinity`, `toFixed` and `Math.acos` are not modelled. `NaN` appears only where the validators and the client test it (`JsValues.JsNumber`).
- LinearAlgebra.EuclideanDistance: requires equal lengths. The source loops over the first vector's length without a check, so a shorter second vector gives NaN and a longer one is truncated; those cases are not modelled.
- LinearAlgebra.ManhattanDistance: requires equal lengths, for the same reason.
- The centroid and the fusion blend are modelled for equal-length vectors only. Every consistent catalog rules out other lengths. In the source the two behave differently on them:
  - Centroid (`recommendation.service.ts:153-161`): the sum starts as long as the first selected vector. A shorter later vector adds nothing to the trailing slots, which keep the other movies' sums. A longer one writes `undefined + val`, which is NaN, at the new indices and so lengthens the centroid.
  - Fusion blend (`recommendation.service.ts:209`): it loops over the first vector's length, so a shorter second vector reads `undefined` and yields NaN.
- Cosine similarity is not proved to be at most 1. That needs the Cauchy–Schwarz inequality, and the calculator's clamp is modelled instead.
- CSV ingestion and row cleaning in `loadAndVectorize` (`movie.service.ts:67-128`): the file stream, `csv-parser` and the `parseInt`/`parseFloat` cleaning are I/O and foreign parsing. The model starts from the accepted rows (`MovieService.MovieRow`). Ids are taken as integers; the source keeps the CSV's `row.id` as it comes (`movie.service.ts:119`). The taste endpoint passes the request body's `movieIds` unconverted (`app.controller.ts:98-100`), and `includes` compares strictly, so in the source numeric ids match no CSV id read as a string. The taste selection is modelled with the declared `id: number` (`movie.interface.ts:6`).
- The HTTP layer: controllers, module wiring, timing with `performance.now()`, `console.log`, and the response formatter. Each handler returns the exception it would throw, because every path of a handler throws.
- `validateJSON` (`validation.util.ts:48-59`) is a thin wrapper over `JSON.parse`.
- React rendering and network calls: `App.tsx`, `MovieCard.tsx`, `RadarChart.tsx`, `ErrorNotification.tsx` and `MathModal.tsx`. Only the toggle helpers of `AppContext.tsx` and `ControlsPanel.tsx` are modelled, as pure functions from the previous state to the next; React's scheduling of state updates is not modelled.
- Strings.Lower: maps only the ASCII letters A–Z. JavaScript's `toLowerCase` applies full Unicode case mapping, which can change lengths, so title matching and metric normalisation are weaker for non-ASCII text.
- String sort order is code-point order (`Strings.Below`); JavaScript's default sort compares UTF-16 code units, which differs only for characters above U+FFFF.
- ControlsPanel.SliderWeight: `parseInt` without a radix also reads a `0x` prefix as hexadecimal; slider values never have one, and the model reads decimal only.
- JavaScript objects list integer-like keys first in ascending order, whatever the insertion order; `Records` keeps insertion order for every key.
- A fractional `limit` is truncated by `slice`; limits are integers here (`validateLimit` only produces integers).
- `SimilarityCalculator.CalculateSimilarity` takes vectors that are present; the source's `!vectorA || !vectorB` guard for missing arguments has no counterpart.

=== FILE: app_context.dfy ===
/**
 * The web client's list of liked movies: `toggleLikedMovie` adds a movie or
 * removes it by id, and `isMovieLiked` asks whether an id is in the list.
 * React's state updater is modelled as the pure function from the previous
 * list to the next one.
 */
module AppContext {
  import opened Wrappers

  /** The client's `Movie`: a recommendation as the API returned it; `id` may be missing. */
  datatype ClientMovie = ClientMovie(
    id: Option<int>,
    title: string,
    overview: Option<string>,
    genres: seq<string>,
    poster: string,
    posterUrl: Option<string>,
    vector: seq<real>,
    similarityScore: string,
    mathExplanation: Option<string>)

  /** `liked.some(m => m.id === id)`; a missing id equals only another missing id. */
  predicate HasId(liked: seq<ClientMovie>, id: Option<int>) {
    exists i :: 0 <= i < |liked| && liked[i].id == id
  }

  /** `liked.filter(m => m.id !== id)`. */
  function RemoveId(liked: seq<ClientMovie>, id: Option<int>): (r: seq<ClientMovie>)
    ensures |r| <= |liked|
    ensures forall i :: 0 <= i < |r| ==> r[i] in liked && r[i].id != id
    ensures forall i :: 0 <= i < |liked| && liked[i].id != id ==> liked[i] in r
  {
    if |liked| == 0 then []
    else
      assert forall i :: 1 <= i < |liked| ==> liked[i] == liked[1..][i - 1];
      var rest := RemoveId(liked[1..], id);
      if liked[0].id == id then rest else [liked[0]] + rest
  }

  /** The filter works entry by entry: it keeps the order of what it keeps. */
  lemma {:induction false} RemoveIdAppend(a: seq<ClientMovie>, b: seq<ClientMovie>, id: Option<int>)
    ensures RemoveId(a + b, id) == RemoveId(a, id) + RemoveId(b, id)
  {
    if |a| == 0 {
      assert a + b == b;
    } else {
      assert (a + b)[1..] == a[1..] + b;
      RemoveIdAppend(a[1..], b, id);
    }
  }

  lemma RemoveIdSingle(m: ClientMovie, id: Option<int>)
    ensures RemoveId([m], id) == if m.id == id then [] else [m]
  {
    assert [m][1..] == [];
  }

  /** Removing an id that is not in the list changes nothing. */
  lemma {:induction false} RemoveIdAbsent(liked: seq<ClientMovie>, id: Option<int>)
    requires !HasId(liked, id)
    ensures RemoveId(liked, id) == liked
  {
    if |liked| > 0 {
      assert !HasId(liked[1..], id) by {
        assert forall i :: 1 <= i < |liked| ==> liked[i] == liked[1..][i - 1];
      }
      RemoveIdAbsent(liked[1..], id);
      assert liked[0].id != id;
      assert liked == [liked[0]] + liked[1..];
    }
  }

  /**
   * Two movies without an id share one slot: liking the second unlikes the
   * first, since `undefined === undefined`.
   */
  lemma IdlessMoviesShareOneSlot(a: ClientMovie, b: ClientMovie)
    requires a.id.None? && b.id.None?
    ensures ToggleLikedMovie([], a) == [a]
    ensures ToggleLikedMovie([a], b) == []
  {
    assert HasId([a], b.id) by { assert [a][0].id == b.id; }
    RemoveIdSingle(a, b.id);
  }

  /** The updater `toggleLikedMovie` hands to `setLikedMovies`. */
  function ToggleLikedMovie(prev: seq<ClientMovie>, movie: ClientMovie): (next: seq<ClientMovie>)
    ensures !HasId(prev, movie.id) ==> next == prev + [movie]
    ensures HasId(prev, movie.id) ==> !HasId(next, movie.id) && |next| < |prev|
    ensures forall i :: 0 <= i < |prev| && prev[i].id != movie.id ==> prev[i] in next
    ensures forall i :: 0 <= i < |next| && next[i].id != movie.id ==> next[i] in prev
  {
    if HasId(prev, movie.id) then
      var r := RemoveId(prev, movie.id);
      assert |r| < |prev| by {
        var i :| 0 <= i < |prev| && prev[i].id == movie.id;
        RemoveIdShorter(prev, movie.id, i);
      }
      r
    else
      prev + [movie]
  }

  lemma {:induction false} RemoveIdShorter(liked: seq<ClientMovie>, id: Option<int>, i: nat)
    requires i < |liked| && liked[i].id == id
    ensures |RemoveId(liked, id)| < |liked|
  {
    if i > 0 {
      assert liked[1..][i - 1] == liked[i];
      RemoveIdShorter(liked[1..], id, i - 1);
    }
  }

  /** A present movie's toggle is exactly the filter, order kept. */
  lemma TogglePresent(prev: seq<ClientMovie>, movie: ClientMovie)
    requires HasId(prev, movie.id)
    ensures ToggleLikedMovie(prev, movie) == RemoveId(prev, movie.id)
  {
  }

  /** `isMovieLiked`: never for a missing id, otherwise whether the list holds the id. */
  function IsMovieLiked(liked: seq<ClientMovie>, movieId: Option<int>): (b: bool)
    ensures movieId.None? ==> !b
    ensures movieId.Some? ==> (b <==> exists i :: 0 <= i < |liked| && liked[i].id == movieId)
  {
    movieId.Some? && HasId(liked, movieId)
  }

  /** Toggling the same absent movie twice restores the list. */
  lemma ToggleTwiceRestores(prev: seq<ClientMovie>, movie: ClientMovie)
    requires !HasId(prev, movie.id)
    ensures ToggleLikedMovie(ToggleLikedMovie(prev, movie), movie) == prev
  {
    var once := prev + [movie];
    assert once[|prev|].id == movie.id;
    RemoveIdAppend(prev, [movie], movie.id);
    RemoveIdSingle(movie, movie.id);
    RemoveIdAbsent(prev, movie.id);
    assert prev + [] == prev;
  }

  /** A toggle flips whether the movie counts as liked and no other id's answer. */
  lemma ToggleFlipsLiked(prev: seq<ClientMovie>, movie: ClientMovie, other: Option<int>)
    requires movie.id.Some?
    ensures IsMovieLiked(ToggleLikedMovie(prev, movie), movie.id) == !IsMovieLiked(prev, movie.id)
    ensures other != movie.id ==> IsMovieLiked(ToggleLikedMovie(prev, movie), other) == IsMovieLiked(prev, other)
  {
    var next := ToggleLikedMovie(prev, movie);
    if !HasId(prev, movie.id) {
      assert next[|prev|].id == movie.id;
    }
    if other != movie.id && other.Some? {
      if HasId(prev, other) {
        var i :| 0 <= i < |prev| && prev[i].id == other;
        assert prev[i] in next;
      }
      if HasId(next, other) {
        var i :| 0 <= i < |next| && next[i].id == other;
        assert next[i] in prev;
      }
    }
  }
}

=== FILE: controls_panel.dfy ===
/**
 * The mood-mode controls of the web client: clicking a genre tag selects it
 * with the default weight or unselects it, and a slider sets its weight.
 * Both build a new weight record; the old one is an immutable value here.
 */
module ControlsPanel {
  import opened Wrappers
  import opened Strings
  import opened Records
  import opened JsValues

  /** The weight a newly selected genre gets. */
  const SelectedWeight: JsNumber := Finite(5.0)

  /** `toggleGenre`: a genre with a truthy weight is removed, any other gets weight 5. */
  function ToggleGenre(weights: Record<JsNumber>, genre: string): (r: Record<JsNumber>)
    requires DistinctKeys(weights)
    ensures DistinctKeys(r)
    ensures Get(weights, genre).Some? && Get(weights, genre).value.Truthy() ==> !HasKey(r, genre)
    ensures !(Get(weights, genre).Some? && Get(weights, genre).value.Truthy()) ==> Get(r, genre) == Some(SelectedWeight)
    ensures forall g :: g != genre ==> Get(r, g) == Get(weights, g)
  {
    match Get(weights, genre)
    case Some(w) =>
      if w.Truthy() then
        DeleteGet(weights, genre);
        Delete(weights, genre)
      else
        Select(weights, genre)
    case None =>
      Select(weights, genre)
  }

  /** `newWeights[genre] = 5` on the copy. */
  function Select(weights: Record<JsNumber>, genre: string): (r: Record<JsNumber>)
    requires DistinctKeys(weights)
    ensures DistinctKeys(r)
    ensures Get(r, genre) == Some(SelectedWeight)
    ensures forall g :: g != genre ==> Get(r, g) == Get(weights, g)
  {
    SetDistinct(weights, genre, SelectedWeight);
    SetGets(weights, genre, SelectedWeight);
    Set(weights, genre, SelectedWeight)
  }

  /** Selecting and then unselecting an absent genre gives the record back. */
  lemma ToggleGenreTwiceRestores(weights: Record<JsNumber>, genre: string)
    requires DistinctKeys(weights) && !HasKey(weights, genre)
    ensures ToggleGenre(ToggleGenre(weights, genre), genre) == weights
  {
    SetNewKey(weights, genre, SelectedWeight);
    DeleteAfterAdd(weights, genre, SelectedWeight);
  }

  /** Unselecting and reselecting a genre resets its weight to 5 and moves it to the end. */
  lemma ToggleGenreTwiceResets(weights: Record<JsNumber>, genre: string)
    requires DistinctKeys(weights)
    requires Get(weights, genre).Some? && Get(weights, genre).value.Truthy()
    ensures ToggleGenre(ToggleGenre(weights, genre), genre) == Delete(weights, genre) + [(genre, SelectedWeight)]
  {
    DeleteGet(weights, genre);
    SetNewKey(Delete(weights, genre), genre, SelectedWeight);
  }

  /** `parseInt(val)` as a weight: NaN when the text holds no digits. */
  function SliderWeight(val: string): (w: JsNumber)
    ensures w.NaN? <==> ParseInt(val).None?
    ensures w.Finite? ==> w.IsInteger()
  {
    match ParseInt(val)
    case Some(n) => Finite(n as real)
    case None => NaN
  }

  /** `updateWeight`: the genre gets the parsed slider value; nothing else changes. */
  function UpdateWeight(weights: Record<JsNumber>, genre: string, val: string): (r: Record<JsNumber>)
    requires DistinctKeys(weights)
    ensures Get(r, genre) == Some(SliderWeight(val))
    ensures forall g :: g != genre ==> Get(r, g) == Get(weights, g)
    ensures HasKey(weights, genre) ==> |r| == |weights| && forall i :: 0 <= i < |r| ==> r[i].0 == weights[i].0
    ensures !HasKey(weights, genre) ==> r == weights + [(genre, SliderWeight(val))]
    ensures DistinctKeys(r)
  {
    SetGets(weights, genre, SliderWeight(val));
    SetNewKey(weights, genre, SliderWeight(val));
    SetExistingKey(weights, genre, SliderWeight(val));
    SetDistinct(weights, genre, SliderWeight(val));
    Set(weights, genre, SliderWeight(val))
  }

  /** A slider position `n` from 1 to 10 reads back as `n` and keeps the genre selected. */
  lemma SliderKeepsSelected(weights: Record<JsNumber>, genre: string, n: nat)
    requires DistinctKeys(weights)
    requires 1 <= n <= 10
    ensures Get(UpdateWeight(weights, genre, NatToString(n)), genre) == Some(Finite(n as real))
    ensures !HasKey(ToggleGenre(UpdateWeight(weights, genre, NatToString(n)), genre), genre)
  {
    ParseIntOfNatToString(n);
  }
}

=== FILE: error_handler.dfy ===
/**
 * The API's error handlers: they turn a thrown error into an HTTP exception
 * with an error code, chosen by searching the error's message for keywords.
 * The utilities are part of the API, but its controller does not call them.
 *
 * The handlers never return: every path throws. Here each handler is a
 * function whose result is the exception it throws.
 */
module ErrorHandler {
  import opened Wrappers
  import opened Strings
  import opened Errors

  /** What was thrown: its message (`error.message`, or `String(error)`) and whether it is a `SyntaxError`. */
  datatype Thrown = Thrown(message: string, isSyntaxError: bool)

  datatype ErrorCode = MovieNotFound | InvalidInput | InvalidJson | ProcessingError

  /** A `BadRequestException` (400) or `InternalServerErrorException` (500) with its response body. */
  datatype HttpException = HttpException(status: int, message: string, code: ErrorCode, details: Option<string>)

  const NotFoundKeyword: string := "tidak ditemukan"

  /** The keywords that mark a validation error, searched case-sensitively. */
  const ValidationKeywords: seq<string> := ["Title", "Rasio", "ratio", "Weights", "genre", "movieIds", "movie ID", "Pilih"]

  predicate HasValidationKeyword(message: string) {
    exists k :: 0 <= k < |ValidationKeywords| && Contains(message, ValidationKeywords[k])
  }

  const JsonMessage: string := "Format data salah. Gunakan format JSON yang valid."
  const WeightsJsonMessage: string := "Format weights salah. Gunakan format JSON yang valid."
  const ProcessingPrefix: string := "Terjadi kesalahan saat memproses "

  /**
   * `handleError`: not-found first, then the validation keywords, then
   * `SyntaxError`, and a 500 naming the context for everything else.
   */
  function HandleError(error: Thrown, context: string): (x: HttpException)
    ensures Contains(error.message, NotFoundKeyword) ==>
              x == HttpException(400, error.message, MovieNotFound, None)
    ensures !Contains(error.message, NotFoundKeyword) && HasValidationKeyword(error.message) ==>
              x == HttpException(400, error.message, InvalidInput, None)
    ensures !Contains(error.message, NotFoundKeyword) && !HasValidationKeyword(error.message) && error.isSyntaxError ==>
              x == HttpException(400, JsonMessage, InvalidJson, Some(error.message))
    ensures !Contains(error.message, NotFoundKeyword) && !HasValidationKeyword(error.message) && !error.isSyntaxError ==>
              x.status == 500 && x.code == ProcessingError && x.details == Some(error.message)
              && x.message == ProcessingPrefix + context && Contains(x.message, context)
    ensures x.status == 400 <==> x.code != ProcessingError
  {
    if Contains(error.message, NotFoundKeyword) then
      HttpException(400, error.message, MovieNotFound, None)
    else if HasValidationKeyword(error.message) then
      HttpException(400, error.message, InvalidInput, None)
    else if error.isSyntaxError then
      HttpException(400, JsonMessage, InvalidJson, Some(error.message))
    else
      assert Contains(context, context) by { assert OccursAt(context, context, 0); }
      ContainsInside(ProcessingPrefix, context, [], context);
      assert ProcessingPrefix + context + [] == ProcessingPrefix + context;
      HttpException(500, ProcessingPrefix + context, ProcessingError, Some(error.message))
  }

  /** `handleWeightsError`: any `SyntaxError` is a JSON error, whatever its message says. */
  function HandleWeightsError(error: Thrown): (x: HttpException)
    ensures error.isSyntaxError ==> x == HttpException(400, WeightsJsonMessage, InvalidJson, Some(error.message))
    ensures !error.isSyntaxError ==> x == HandleError(error, "weights")
  {
    if error.isSyntaxError then HttpException(400, WeightsJsonMessage, InvalidJson, Some(error.message))
    else HandleError(error, "weights")
  }

  function HandleTasteError(error: Thrown): (x: HttpException)
    ensures x == HandleError(error, "taste profile")
    ensures x.code == ProcessingError ==> x.message == ProcessingPrefix + "taste profile"
  {
    HandleError(error, "taste profile")
  }

  function HandleFusionError(error: Thrown): (x: HttpException)
    ensures x == HandleError(error, "fusion")
    ensures x.code == ProcessingError ==> x.message == ProcessingPrefix + "fusion"
  {
    HandleError(error, "fusion")
  }

  /** Only the weights handler lets `SyntaxError` take precedence over the keywords. */
  lemma SyntaxErrorPrecedence(message: string)
    requires HasValidationKeyword(message) && !Contains(message, NotFoundKeyword)
    ensures HandleError(Thrown(message, true), "weights").code == InvalidInput
    ensures HandleWeightsError(Thrown(message, true)).code == InvalidJson
  {
  }

  // ---------------------------------------------------------------------
  // The model's own errors, classified
  // ---------------------------------------------------------------------

  /** A block of a string is a block of any extension of it. */
  lemma ContainsExtend(a: string, b: string, k: string)
    requires Contains(a, k)
    ensures Contains(a + b, k)
  {
    var i: int :| OccursAt(a, k, i);
    assert OccursAt(a, k, i);
    assert (a + b)[i..i + |k|] == a[i..i + |k|];
    assert OccursAt(a + b, k, i);
  }

  /** Both not-found errors of the modes map to `MOVIE_NOT_FOUND` in every handler. */
  lemma NotFoundErrorsClassified(e: Error, isSyntaxError: bool, context: string)
    requires e.TitleNotFound? || e.FusionTitleNotFound?
    ensures HandleError(Thrown(e.Message(), isSyntaxError), context).code == MovieNotFound
  {
    if e.TitleNotFound? {
      var tail := "\" tidak ditemukan!";
      assert OccursAt(tail, NotFoundKeyword, 2);
      ContainsInside("Film dengan judul \"" + e.title, tail, [], NotFoundKeyword);
      assert "Film dengan judul \"" + e.title + tail + [] == e.Message();
    } else {
      assert OccursAt(e.Message(), NotFoundKeyword, 27);
    }
  }

  /** A keyword at position `p` of a literal prefix is in the whole message. */
  lemma KeywordIn(lit: string, rest: string, k: nat, p: nat)
    requires k < |ValidationKeywords| && OccursAt(lit, ValidationKeywords[k], p)
    ensures HasValidationKeyword(lit + rest)
  {
    ContainsExtend(lit, rest, ValidationKeywords[k]);
  }

  lemma InvalidWeightKeyword(g: string, w: string)
    ensures HasValidationKeyword(InvalidWeight(g, w).Message())
  {
    var lit := "Invalid weight for genre \"";
    assert OccursAt(lit, ValidationKeywords[4], 19);
    KeywordIn(lit, g + "\": " + w + ". Weight must be >= 0.", 4, 19);
    assert lit + (g + "\": " + w + ". Weight must be >= 0.") == InvalidWeight(g, w).Message();
  }

  lemma InvalidMovieIdKeyword(i: nat, id: string)
    ensures HasValidationKeyword(InvalidMovieId(i, id).Message())
  {
    var lit := "Invalid movie ID at index ";
    assert OccursAt(lit, ValidationKeywords[6], 8);
    KeywordIn(lit, NatToString(i) + ": " + id, 6, 8);
    assert lit + (NatToString(i) + ": " + id) == InvalidMovieId(i, id).Message();
  }

  /** Every validation error carries one of the keywords. */
  lemma ValidationErrorsHaveKeyword(e: Error)
    requires e.IsValidation()
    ensures HasValidationKeyword(e.Message())
  {
    match e
    case EmptyWeights =>
      var lit := "Weights tidak boleh kosong. ";
      assert OccursAt(lit, ValidationKeywords[3], 0);
      KeywordIn(lit, "Format: {\"Action\":10,\"Comedy\":5}", 3, 0);
    case InvalidGenreName(g) =>
      var lit := "Invalid genre name: ";
      assert OccursAt(lit, ValidationKeywords[4], 8);
      KeywordIn(lit, g, 4, 8);
    case InvalidWeight(g, w) =>
      InvalidWeightKeyword(g, w);
    case TitleNotString =>
      assert OccursAt(e.Message(), ValidationKeywords[0], 0);
      KeywordIn(e.Message(), [], 0, 0);
      assert e.Message() + [] == e.Message();
    case TitleBlank =>
      assert OccursAt(e.Message(), ValidationKeywords[0], 0);
      KeywordIn(e.Message(), [], 0, 0);
      assert e.Message() + [] == e.Message();
    case IdsNotArray =>
      assert OccursAt(e.Message(), ValidationKeywords[5], 0);
      KeywordIn(e.Message(), [], 5, 0);
      assert e.Message() + [] == e.Message();
    case NoIdsSelected =>
      assert OccursAt(e.Message(), ValidationKeywords[7], 0);
      KeywordIn(e.Message(), [], 7, 0);
      assert e.Message() + [] == e.Message();
    case InvalidMovieId(i, id) =>
      InvalidMovieIdKeyword(i, id);
    case RatioOutOfRange(r) =>
      var lit := "Rasio harus antara 0 dan 1, got: ";
      assert OccursAt(lit, ValidationKeywords[1], 0);
      KeywordIn(lit, r, 1, 0);
  }

  /**
   * A validation error maps to `INVALID_INPUT` (status 400) in every
   * handler when it is not a `SyntaxError`, unless the user's own text in
   * the message happens to contain the not-found phrase.
   */
  lemma ValidationErrorsClassified(e: Error, context: string)
    requires e.IsValidation()
    requires !Contains(e.Message(), NotFoundKeyword)
    ensures HandleError(Thrown(e.Message(), false), context) == HttpException(400, e.Message(), InvalidInput, None)
    ensures HandleWeightsError(Thrown(e.Message(), false)).code == InvalidInput
  {
    ValidationErrorsHaveKeyword(e);
  }

  /** An invalid weight for a genre named after the not-found phrase is reported as `MOVIE_NOT_FOUND`. */
  lemma NotFoundPhraseInGenreWins(w: string)
    ensures HandleWeightsError(Thrown(InvalidWeight(NotFoundKeyword, w).Message(), false)).code == MovieNotFound
  {
    var lit := "Invalid weight for genre \"";
    var m := InvalidWeight(NotFoundKeyword, w).Message();
    assert OccursAt(m, NotFoundKeyword, |lit|) by {
      assert m == lit + NotFoundKeyword + ("\": " + w + ". Weight must be >= 0.");
    }
  }

  /** The letters of the taste mode's empty-selection message. */
  lemma SelectionMessageLetters(m: string)
    requires m == NoValidSelection.Message()
    ensures forall c :: c in m ==> c in "Tidak dfmyngplhv."
  {
  }

  /** The first letters of the keywords it lacks. */
  lemma SelectionMessageLacks(m: string)
    requires forall c :: c in m ==> c in "Tidak dfmyngplhv."
    ensures 't' !in m && 'e' !in m && 'o' !in m && 'r' !in m && 'R' !in m && 'W' !in m && 'P' !in m
  {
  }

  /** The taste handler's own error text holds neither the not-found phrase nor a keyword. */
  lemma NoValidSelectionHasNoKeyword()
    ensures !Contains(NoValidSelection.Message(), NotFoundKeyword)
    ensures !HasValidationKeyword(NoValidSelection.Message())
  {
    var m := NoValidSelection.Message();
    SelectionMessageLetters(m);
    SelectionMessageLacks(m);
    MissingCharNotContained(m, NotFoundKeyword, 0);
    MissingCharNotContained(m, ValidationKeywords[0], 4);
    MissingCharNotContained(m, ValidationKeywords[1], 0);
    MissingCharNotContained(m, ValidationKeywords[2], 0);
    MissingCharNotContained(m, ValidationKeywords[3], 0);
    MissingCharNotContained(m, ValidationKeywords[4], 1);
    MissingCharNotContained(m, ValidationKeywords[5], 1);
    MissingCharNotContained(m, ValidationKeywords[6], 1);
    MissingCharNotContained(m, ValidationKeywords[7], 0);
  }

  /** An empty taste selection matches no keyword, so it is a 500 naming the taste profile. */
  lemma NoValidSelectionClassified()
    ensures HandleTasteError(Thrown(NoValidSelection.Message(), false))
            == HttpException(500, ProcessingPrefix + "taste profile", ProcessingError, Some(NoValidSelection.Message()))
  {
    NoValidSelectionHasNoKeyword();
  }
}

=== FILE: errors.dfy ===
/**
 * Every error the recommendation core and its validators throw, with the
 * message text each throw site builds. The error handler classifies errors
 * by searching these messages for keywords.
 */
module Errors {
  import Strings

  datatype Error =
    /** `dotProduct` on vectors of different lengths. */
    | DimensionMismatch
    /** `calculateSimilarity` on non-empty vectors of different lengths. */
    | VectorLengthMismatch(lengthA: nat, lengthB: nat)
    /** `calculateSimilarity` with a metric outside the three known ones. */
    | UnknownMetric(metric: string)
    /** `recommend`: no catalog title matches. */
    | TitleNotFound(title: string)
    /** `recommendByTasteProfile`: none of the ids is in the catalog. */
    | NoValidSelection
    /** `recommendByFusion`: one of the two titles is missing. */
    | FusionTitleNotFound
    /** `validateWeights` failures. */
    | EmptyWeights
    | InvalidGenreName(genre: string)
    | InvalidWeight(genre: string, weight: string)
    /** `validateTitle` failures. */
    | TitleNotString
    | TitleBlank
    /** `validateMovieIds` failures. */
    | IdsNotArray
    | NoIdsSelected
    | InvalidMovieId(index: nat, id: string)
    /** `validateRatio` failure. */
    | RatioOutOfRange(ratio: string)
  {
    /** The message text the source puts into the thrown `Error`. */
    function Message(): string {
      match this
      case DimensionMismatch => "Dimensi vektor tidak sama! Tidak bisa dihitung."
      case VectorLengthMismatch(a, b) =>
        "Vector dimensions mismatch: " + Strings.NatToString(a) + " vs " + Strings.NatToString(b)
      case UnknownMetric(m) => "Unknown similarity metric: " + m
      case TitleNotFound(t) => "Film dengan judul \"" + t + "\" tidak ditemukan!"
      case NoValidSelection => "Tidak ada film yang dipilih valid."
      case FusionTitleNotFound => "Salah satu atau kedua film tidak ditemukan."
      case EmptyWeights => "Weights tidak boleh kosong. " + "Format: {\"Action\":10,\"Comedy\":5}"
      case InvalidGenreName(g) => "Invalid genre name: " + g
      case InvalidWeight(g, w) => "Invalid weight for genre \"" + g + "\": " + w + ". Weight must be >= 0."
      case TitleNotString => "Title harus string non-empty"
      case TitleBlank => "Title tidak boleh kosong"
      case IdsNotArray => "movieIds harus berupa array"
      case NoIdsSelected => "Pilih minimal 1 film"
      case InvalidMovieId(i, id) => "Invalid movie ID at index " + Strings.NatToString(i) + ": " + id
      case RatioOutOfRange(r) => "Rasio harus antara 0 dan 1, got: " + r
    }

    /** Errors raised by the request validators. */
    predicate IsValidation() {
      || EmptyWeights? || InvalidGenreName? || InvalidWeight?
      || TitleNotString? || TitleBlank?
      || IdsNotArray? || NoIdsSelected? || InvalidMovieId?
      || RatioOutOfRange?
    }
  }
}

=== FILE: js_values.dfy ===
/** The parts of JavaScript's dynamic values that the validators and the client inspect. */
module JsValues {

  /** A JavaScript number: NaN or a finite value. */
  datatype JsNumber = NaN | Finite(value: real) {

    /** Truthiness: NaN and zero are falsy, every other number is truthy. */
    predicate Truthy() {
      Finite? && value != 0.0
    }

    /** `Number.isInteger`. */
    predicate IsInteger() {
      Finite? && value == value.Floor as real
    }
  }

  /**
   * An arbitrary input value as far as a validator looks at it: how a
   * template literal prints it (`text`) and what `Number(...)` makes of it.
   */
  datatype JsValue = JsValue(text: string, number: JsNumber)
}

=== FILE: linear_algebra.dfy ===
/**
 * The vector arithmetic of `LinearAlgebraService`: dot product, magnitude,
 * cosine similarity, Euclidean and Manhattan distance over `real` vectors.
 *
 * The functions (`Dot`, `Norm`, `Cos`, `Euclid`, `Manhattan`) are the
 * formulas the service documents; the methods of the same names as the
 * service's members run the service's loops and are proved to compute them.
 * `Math.sqrt` is a parameter `sqrt` that is only assumed to be the
 * non-negative square root (`IsSqrt`).
 */
module LinearAlgebra {
  import opened Wrappers
  import opened Errors

  type Vector = seq<real>

  /** `sqrt` returns the non-negative square root of every non-negative real. */
  ghost predicate IsSqrt(sqrt: real -> real) {
    forall x :: 0.0 <= x ==> 0.0 <= sqrt(x) && sqrt(x) * sqrt(x) == x
  }

  lemma SqrtOfSquare(sqrt: real -> real, x: real, y: real)
    requires IsSqrt(sqrt)
    requires 0.0 <= y && y * y == x
    ensures sqrt(x) == y
  {
    var r := sqrt(x);
    assert 0.0 <= r && r * r == x;
    assert (r - y) * (r + y) == 0.0;
    ZeroProduct(r - y, r + y);
  }

  lemma ZeroProduct(a: real, b: real)
    requires a * b == 0.0
    ensures a == 0.0 || b == 0.0
  {
  }

  predicate AllZero(v: Vector) {
    forall i :: 0 <= i < |v| ==> v[i] == 0.0
  }

  function Abs(x: real): real { if x < 0.0 then -x else x }

  // ---------------------------------------------------------------------
  // The formulas
  // ---------------------------------------------------------------------

  /** A · B = a1*b1 + ... + an*bn. */
  function Dot(a: Vector, b: Vector): real
    requires |a| == |b|
  {
    if |a| == 0 then 0.0 else Dot(a[..|a| - 1], b[..|b| - 1]) + a[|a| - 1] * b[|b| - 1]
  }

  /** ||v|| = sqrt(v1^2 + ... + vn^2). */
  function Norm(sqrt: real -> real, v: Vector): (r: real)
    requires IsSqrt(sqrt)
    ensures 0.0 <= r && r * r == Dot(v, v)
  {
    DotSelfNonNegative(v);
    sqrt(Dot(v, v))
  }

  /** (A · B) / (||A|| ||B||), and 0 when either magnitude is 0. */
  function Cos(sqrt: real -> real, a: Vector, b: Vector): real
    requires IsSqrt(sqrt)
    requires |a| == |b|
  {
    var ma := Norm(sqrt, a);
    var mb := Norm(sqrt, b);
    if ma == 0.0 || mb == 0.0 then 0.0 else Dot(a, b) / (ma * mb)
  }

  /** The component-wise difference a - b. */
  function Diff(a: Vector, b: Vector): (d: Vector)
    requires |a| == |b|
    ensures |d| == |a|
    ensures forall i :: 0 <= i < |a| ==> d[i] == a[i] - b[i]
  {
    seq(|a|, i requires 0 <= i < |a| => a[i] - b[i])
  }

  /** sqrt(sum (ai - bi)^2). */
  function Euclid(sqrt: real -> real, a: Vector, b: Vector): (r: real)
    requires IsSqrt(sqrt)
    requires |a| == |b|
    ensures 0.0 <= r
  {
    Norm(sqrt, Diff(a, b))
  }

  /** |v1| + ... + |vn|. */
  function AbsSum(v: Vector): (r: real)
    ensures 0.0 <= r
  {
    if |v| == 0 then 0.0 else AbsSum(v[..|v| - 1]) + Abs(v[|v| - 1])
  }

  /** sum |ai - bi|. */
  function Manhattan(a: Vector, b: Vector): (r: real)
    requires |a| == |b|
    ensures 0.0 <= r
  {
    AbsSum(Diff(a, b))
  }

  // ---------------------------------------------------------------------
  // The service's members
  // ---------------------------------------------------------------------

  /** `dotProduct`: throws on a length mismatch, otherwise the full sum, never a truncated one. */
  method DotProduct(a: Vector, b: Vector) returns (r: Result<real, Error>)
    ensures |a| != |b| ==> r == Failure(DimensionMismatch)
    ensures |a| == |b| ==> r == Success(Dot(a, b))
  {
    if |a| != |b| {
      return Failure(DimensionMismatch);
    }
    var result := 0.0;
    for i := 0 to |a|
      invariant result == Dot(a[..i], b[..i])
    {
      assert a[..i + 1][..i] == a[..i];
      assert b[..i + 1][..i] == b[..i];
      result := result + a[i] * b[i];
    }
    assert a[..|a|] == a && b[..|b|] == b;
    return Success(result);
  }

  /** `magnitude`: the square root of the sum of squares, a non-negative number. */
  method Magnitude(sqrt: real -> real, v: Vector) returns (m: real)
    requires IsSqrt(sqrt)
    ensures m == Norm(sqrt, v)
    ensures 0.0 <= m && m * m == Dot(v, v)
  {
    var sumOfSquares := 0.0;
    for i := 0 to |v|
      invariant sumOfSquares == Dot(v[..i], v[..i])
    {
      assert v[..i + 1][..i] == v[..i];
      sumOfSquares := sumOfSquares + v[i] * v[i];
    }
    assert v[..|v|] == v;
    m := sqrt(sumOfSquares);
  }

  /** `cosineSimilarity`: the dot product's error first, then 0 for a zero magnitude, else the quotient. */
  method CosineSimilarity(sqrt: real -> real, a: Vector, b: Vector) returns (r: Result<real, Error>)
    requires IsSqrt(sqrt)
    ensures |a| != |b| ==> r == Failure(DimensionMismatch)
    ensures |a| == |b| ==> r == Success(Cos(sqrt, a, b))
  {
    var dot := DotProduct(a, b);
    if dot.Failure? {
      return Failure(dot.error);
    }
    var magA := Magnitude(sqrt, a);
    var magB := Magnitude(sqrt, b);
    if magA == 0.0 || magB == 0.0 {
      return Success(0.0);
    }
    assert dot.value == Dot(a, b);
    assert Cos(sqrt, a, b) == Dot(a, b) / (magA * magB);
    return Success(dot.value / (magA * magB));
  }

  /** `euclideanDistance`, for vectors of equal length. */
  method EuclideanDistance(sqrt: real -> real, a: Vector, b: Vector) returns (d: real)
    requires IsSqrt(sqrt)
    requires |a| == |b|
    ensures d == Euclid(sqrt, a, b)
    ensures 0.0 <= d && d * d == Dot(Diff(a, b), Diff(a, b))
  {
    ghost var diffs := Diff(a, b);
    var sum := 0.0;
    for i := 0 to |a|
      invariant sum == Dot(diffs[..i], diffs[..i])
    {
      assert diffs[..i + 1][..i] == diffs[..i];
      var diff := a[i] - b[i];
      sum := sum + diff * diff;
    }
    assert diffs[..|a|] == diffs;
    d := sqrt(sum);
  }

  /** `manhattanDistance`, for vectors of equal length. */
  method ManhattanDistance(a: Vector, b: Vector) returns (d: real)
    requires |a| == |b|
    ensures d == Manhattan(a, b)
    ensures 0.0 <= d
  {
    ghost var diffs := Diff(a, b);
    var sum := 0.0;
    for i := 0 to |a|
      invariant sum == AbsSum(diffs[..i])
    {
      assert diffs[..i + 1][..i] == diffs[..i];
      sum := sum + Abs(a[i] - b[i]);
    }
    assert diffs[..|a|] == diffs;
    d := sum;
  }

  // ---------------------------------------------------------------------
  // Properties
  // ---------------------------------------------------------------------

  lemma {:induction false} DotSymmetric(a: Vector, b: Vector)
    requires |a| == |b|
    ensures Dot(a, b) == Dot(b, a)
  {
    if |a| > 0 {
      DotSymmetric(a[..|a| - 1], b[..|b| - 1]);
    }
  }

  lemma {:induction false} DotSelfNonNegative(v: Vector)
    ensures 0.0 <= Dot(v, v)
  {
    if |v| > 0 {
      DotSelfNonNegative(v[..|v| - 1]);
    }
  }

  /** The sum of squares vanishes exactly on the all-zero vector (including the empty one). */
  lemma {:induction false} DotSelfZero(v: Vector)
    ensures Dot(v, v) == 0.0 <==> AllZero(v)
  {
    if |v| > 0 {
      var p := v[..|v| - 1];
      var x := v[|v| - 1];
      DotSelfZero(p);
      DotSelfNonNegative(p);
      assert 0.0 <= x * x;
      if AllZero(v) {
        assert forall i :: 0 <= i < |p| ==> p[i] == v[i];
      }
      if Dot(v, v) == 0.0 {
        assert x * x == 0.0;
        ZeroProduct(x, x);
        assert forall i :: 0 <= i < |v| - 1 ==> v[i] == p[i];
      }
    }
  }

  /** The unit test's example: [1,2,3] · [4,5,6] = 32. */
  lemma DotExample()
    ensures Dot([1.0, 2.0, 3.0], [4.0, 5.0, 6.0]) == 32.0
  {
    assert [1.0, 2.0, 3.0][..2] == [1.0, 2.0];
    assert [4.0, 5.0, 6.0][..2] == [4.0, 5.0];
    assert [1.0, 2.0][..1] == [1.0];
    assert [4.0, 5.0][..1] == [4.0];
  }

  /** The magnitude is 0 exactly for the empty or all-zero vector. */
  lemma NormZero(sqrt: real -> real, v: Vector)
    requires IsSqrt(sqrt)
    ensures Norm(sqrt, v) == 0.0 <==> AllZero(v)
  {
    DotSelfZero(v);
    var m := Norm(sqrt, v);
    if Dot(v, v) == 0.0 {
      ZeroProduct(m, m);
    }
  }

  /** The unit test's example: ||[3,4]|| = 5. */
  lemma NormExample(sqrt: real -> real)
    requires IsSqrt(sqrt)
    ensures Norm(sqrt, [3.0, 4.0]) == 5.0
  {
    assert [3.0, 4.0][..1] == [3.0];
    assert Dot([3.0, 4.0], [3.0, 4.0]) == 25.0;
    SqrtOfSquare(sqrt, 25.0, 5.0);
  }

  /** Cosine similarity falls back to exactly 0 when either vector is all zero. */
  lemma CosZeroFallback(sqrt: real -> real, a: Vector, b: Vector)
    requires IsSqrt(sqrt)
    requires |a| == |b|
    requires AllZero(a) || AllZero(b)
    ensures Cos(sqrt, a, b) == 0.0
  {
    NormZero(sqrt, a);
    NormZero(sqrt, b);
  }

  /** A non-zero vector has cosine similarity exactly 1 with itself. */
  lemma CosSelf(sqrt: real -> real, a: Vector)
    requires IsSqrt(sqrt)
    requires !AllZero(a)
    ensures Cos(sqrt, a, a) == 1.0
  {
    NormZero(sqrt, a);
    DotSelfZero(a);
    var m := Norm(sqrt, a);
    var d := Dot(a, a);
    assert d != 0.0 && m * m == d;
    assert d / d == 1.0;
  }

  /** Orthogonal vectors (dot product 0) have cosine similarity 0. */
  lemma CosOrthogonal(sqrt: real -> real, a: Vector, b: Vector)
    requires IsSqrt(sqrt)
    requires |a| == |b| && Dot(a, b) == 0.0
    ensures Cos(sqrt, a, b) == 0.0
  {
  }

  /** The unit test's example: [1,0] and [0,1] are orthogonal. */
  lemma CosOrthogonalExample(sqrt: real -> real)
    requires IsSqrt(sqrt)
    ensures Cos(sqrt, [1.0, 0.0], [0.0, 1.0]) == 0.0
  {
    assert [1.0, 0.0][..1] == [1.0];
    assert [0.0, 1.0][..1] == [0.0];
    assert Dot([1.0, 0.0], [0.0, 1.0]) == 0.0;
  }

  lemma CosSymmetric(sqrt: real -> real, a: Vector, b: Vector)
    requires IsSqrt(sqrt)
    requires |a| == |b|
    ensures Cos(sqrt, a, b) == Cos(sqrt, b, a)
  {
    DotSymmetric(a, b);
  }

  /** Vectors without negative components have a non-negative dot product. */
  lemma {:induction false} DotNonNegative(a: Vector, b: Vector)
    requires |a| == |b|
    requires forall i :: 0 <= i < |a| ==> 0.0 <= a[i] && 0.0 <= b[i]
    ensures 0.0 <= Dot(a, b)
  {
    if |a| > 0 {
      DotNonNegative(a[..|a| - 1], b[..|b| - 1]);
      assert 0.0 <= a[|a| - 1] * b[|b| - 1];
    }
  }

  /** Vectors without negative components (every catalog vector) have non-negative cosine similarity. */
  lemma CosNonNegative(sqrt: real -> real, a: Vector, b: Vector)
    requires IsSqrt(sqrt)
    requires |a| == |b|
    requires forall i :: 0 <= i < |a| ==> 0.0 <= a[i] && 0.0 <= b[i]
    ensures 0.0 <= Cos(sqrt, a, b)
  {
    DotNonNegative(a, b);
    var ma := Norm(sqrt, a);
    var mb := Norm(sqrt, b);
    if ma != 0.0 && mb != 0.0 {
      assert 0.0 < ma * mb;
    }
  }

  lemma DiffSwap(a: Vector, b: Vector)
    requires |a| == |b|
    ensures Dot(Diff(a, b), Diff(a, b)) == Dot(Diff(b, a), Diff(b, a))
    ensures AbsSum(Diff(a, b)) == AbsSum(Diff(b, a))
  {
    NegationPreservesSquaresAndAbs(Diff(a, b), Diff(b, a));
  }

  lemma {:induction false} NegationPreservesSquaresAndAbs(d: Vector, e: Vector)
    requires |d| == |e|
    requires forall i :: 0 <= i < |d| ==> e[i] == -d[i]
    ensures Dot(d, d) == Dot(e, e)
    ensures AbsSum(d) == AbsSum(e)
  {
    if |d| > 0 {
      NegationPreservesSquaresAndAbs(d[..|d| - 1], e[..|e| - 1]);
    }
  }

  /** |v1| + ... + |vn| vanishes exactly on the all-zero vector. */
  lemma {:induction false} AbsSumZero(v: Vector)
    ensures AbsSum(v) == 0.0 <==> AllZero(v)
  {
    if |v| > 0 {
      var p := v[..|v| - 1];
      AbsSumZero(p);
      if AllZero(v) {
        assert forall i :: 0 <= i < |p| ==> p[i] == v[i];
      }
      if AbsSum(v) == 0.0 {
        assert forall i :: 0 <= i < |v| - 1 ==> v[i] == p[i];
      }
    }
  }

  lemma DiffZero(a: Vector, b: Vector)
    requires |a| == |b|
    ensures AllZero(Diff(a, b)) <==> a == b
  {
    if AllZero(Diff(a, b)) {
      assert forall i :: 0 <= i < |a| ==> a[i] == b[i];
    }
  }

  /** Euclidean distance is a non-negative, symmetric measure that is 0 exactly on equal vectors. */
  lemma EuclidProperties(sqrt: real -> real, a: Vector, b: Vector)
    requires IsSqrt(sqrt)
    requires |a| == |b|
    ensures 0.0 <= Euclid(sqrt, a, b)
    ensures Euclid(sqrt, a, b) == Euclid(sqrt, b, a)
    ensures Euclid(sqrt, a, b) == 0.0 <==> a == b
  {
    DiffSwap(a, b);
    NormZero(sqrt, Diff(a, b));
    DiffZero(a, b);
  }

  /** Manhattan distance is a non-negative, symmetric measure that is 0 exactly on equal vectors. */
  lemma ManhattanProperties(a: Vector, b: Vector)
    requires |a| == |b|
    ensures 0.0 <= Manhattan(a, b)
    ensures Manhattan(a, b) == Manhattan(b, a)
    ensures Manhattan(a, b) == 0.0 <==> a == b
  {
    DiffSwap(a, b);
    AbsSumZero(Diff(a, b));
    DiffZero(a, b);
  }
}

=== FILE: movie_service.dfy ===
/**
 * `MovieService`: the genre dimension list of the catalog and the feature
 * vectors built against it.
 *
 * A movie's vector has one slot per dimension genre, 1 when the movie has
 * that genre and 0 otherwise, followed by its rating divided by 10. A mood
 * vector holds the user's weight in each genre slot followed by 0.8.
 * `GenreVector` and `WeightVector` are the reference definitions; the methods
 * `CreateVector` and `CreateWeightedVector` run the service's loops and are
 * proved to build them.
 */
module MovieService {
  import opened Strings
  import opened SeqUtil
  import opened Records
  import opened LinearAlgebra

  /** The rating slot of every mood vector: a user is taken to prefer well-rated movies. */
  const DefaultMoodRating: real := 0.8

  /** A CSV row that passed the popularity and completeness filters, genres already split and trimmed. */
  datatype MovieRow = MovieRow(
    id: int, title: string, overview: string, posterUrl: string,
    genres: seq<string>, keywords: seq<string>, rating: real)

  datatype Movie = Movie(
    id: int, title: string, overview: string, posterUrl: string,
    genres: seq<string>, keywords: seq<string>, rating: real, vector: Vector)

  /** What `onModuleInit` leaves behind: the sorted genre dimensions and the vectorised movies. */
  datatype Catalog = Catalog(genreDimensions: seq<string>, movies: seq<Movie>) {

    /** The dimensions are sorted without duplicates and every vector has one slot per genre plus the rating. */
    predicate Consistent() {
      && StrictlySorted(genreDimensions)
      && forall i :: 0 <= i < |movies| ==> |movies[i].vector| == |genreDimensions| + 1
    }
  }

  // ---------------------------------------------------------------------
  // Reference vectors
  // ---------------------------------------------------------------------

  /** The movie vector: a membership indicator per dimension genre, then `rating / 10`. */
  function GenreVector(dims: seq<string>, genres: seq<string>, rating: real): Vector {
    seq(|dims|, i requires 0 <= i < |dims| => if dims[i] in genres then 1.0 else 0.0) + [rating / 10.0]
  }

  /** The weight a record gives a genre, 0 when it gives none. */
  function WeightOf(weights: Record<real>, genre: string): real {
    match Get(weights, genre)
    case Some(w) => w
    case None => 0.0
  }

  /** The mood vector: the weight of each dimension genre, then `DefaultMoodRating`. */
  function WeightVector(dims: seq<string>, weights: Record<real>): Vector {
    seq(|dims|, i requires 0 <= i < |dims| => WeightOf(weights, dims[i])) + [DefaultMoodRating]
  }

  /** Some genre of the list is found (by `indexOf`) at position `i` of the dimensions. */
  predicate Marks(dims: seq<string>, genres: seq<string>, i: int) {
    exists e :: 0 <= e < |genres| && IndexOf(dims, genres[e]) == i
  }

  /** Over duplicate-free dimensions, slot `i` is marked exactly when its genre is listed. */
  lemma MarksIffMember(dims: seq<string>, genres: seq<string>, i: int)
    requires Distinct(dims) && 0 <= i < |dims|
    ensures Marks(dims, genres, i) <==> dims[i] in genres
  {
    IndexOfDistinct(dims, i);
    if dims[i] in genres {
      var e :| 0 <= e < |genres| && genres[e] == dims[i];
      assert IndexOf(dims, genres[e]) == i;
    }
  }

  // ---------------------------------------------------------------------
  // The service's vector builders
  // ---------------------------------------------------------------------

  /**
   * `createVector`: starts from zeros, sets to 1 the slot `indexOf` finds for
   * each listed genre (genres outside the dimensions are skipped), and appends
   * `rating / 10`.
   */
  method CreateVector(dims: seq<string>, genres: seq<string>, rating: real := 0.0) returns (v: Vector)
    ensures |v| == |dims| + 1
    ensures v[|dims|] == rating / 10.0
    ensures forall i :: 0 <= i < |dims| ==> v[i] == (if Marks(dims, genres, i) then 1.0 else 0.0)
    ensures Distinct(dims) ==> v == GenreVector(dims, genres, rating)
  {
    var vector := seq(|dims|, _ => 0.0);
    for j := 0 to |genres|
      invariant |vector| == |dims|
      invariant forall i :: 0 <= i < |dims| ==>
        vector[i] == (if exists e :: 0 <= e < j && IndexOf(dims, genres[e]) == i then 1.0 else 0.0)
    {
      var index := IndexOf(dims, genres[j]);
      if index != -1 {
        vector := vector[index := 1.0];
      }
    }
    v := vector + [rating / 10.0];
    if Distinct(dims) {
      forall i | 0 <= i < |dims|
        ensures v[i] == GenreVector(dims, genres, rating)[i]
      {
        MarksIffMember(dims, genres, i);
      }
    }
  }

  /**
   * `createWeightedVector`: starts from zeros, and for each entry of the
   * weight record whose genre `indexOf` finds, puts the weight in that slot;
   * then appends `DefaultMoodRating`.
   */
  method CreateWeightedVector(dims: seq<string>, weights: Record<real>) returns (v: Vector)
    requires DistinctKeys(weights)
    ensures |v| == |dims| + 1
    ensures v[|dims|] == DefaultMoodRating
    ensures forall i :: 0 <= i < |dims| ==> v[i] == (if IndexOf(dims, dims[i]) == i then WeightOf(weights, dims[i]) else 0.0)
    ensures Distinct(dims) ==> v == WeightVector(dims, weights)
  {
    var vector := seq(|dims|, _ => 0.0);
    for j := 0 to |weights|
      invariant |vector| == |dims|
      invariant forall i :: 0 <= i < |dims| && (forall e :: 0 <= e < j ==> IndexOf(dims, weights[e].0) != i) ==> vector[i] == 0.0
      invariant forall e :: 0 <= e < j && 0 <= IndexOf(dims, weights[e].0) ==> vector[IndexOf(dims, weights[e].0)] == weights[e].1
    {
      var (genre, weight) := weights[j];
      var index := IndexOf(dims, genre);
      if index != -1 {
        vector := vector[index := weight];
      }
    }
    v := vector + [DefaultMoodRating];
    forall i | 0 <= i < |dims|
      ensures v[i] == (if IndexOf(dims, dims[i]) == i then WeightOf(weights, dims[i]) else 0.0)
    {
      if e :| 0 <= e < |weights| && IndexOf(dims, weights[e].0) == i {
        assert weights[e].0 == dims[i];
      } else if IndexOf(dims, dims[i]) == i {
        assert forall e :: 0 <= e < |weights| ==> weights[e].0 != dims[i];
      }
    }
    if Distinct(dims) {
      forall i | 0 <= i < |dims|
        ensures v[i] == WeightVector(dims, weights)[i]
      {
        IndexOfDistinct(dims, i);
      }
    }
  }

  // ---------------------------------------------------------------------
  // Genre dimensions: Array.from(uniqueGenres).sort()
  // ---------------------------------------------------------------------

  /** Putting a smaller string in front of a strictly sorted list keeps it strictly sorted. */
  lemma SortedCons(x: string, t: seq<string>)
    requires StrictlySorted(t)
    requires forall k :: 0 <= k < |t| ==> Below(x, t[k])
    ensures StrictlySorted([x] + t)
  {
    assert forall k :: 1 <= k < |t| + 1 ==> ([x] + t)[k] == t[k - 1];
  }

  /** Adds one genre to the sorted set of genres seen so far. */
  function InsertGenre(s: seq<string>, g: string): (r: seq<string>)
    requires StrictlySorted(s)
    ensures StrictlySorted(r)
    ensures forall x :: x in r <==> x in s || x == g
  {
    if |s| == 0 then [g]
    else if s[0] == g then s
    else if Below(g, s[0]) then
      forall k | 0 <= k < |s|
        ensures Below(g, s[k])
      {
        if 0 < k {
          BelowTransitive(g, s[0], s[k]);
        }
      }
      SortedCons(g, s);
      [g] + s
    else
      BelowTotal(g, s[0]);
      var rest := InsertGenre(s[1..], g);
      forall k | 0 <= k < |rest|
        ensures Below(s[0], rest[k])
      {
        if rest[k] != g {
          assert rest[k] in s[1..];
          var p :| 0 <= p < |s| - 1 && s[1..][p] == rest[k];
          assert s[p + 1] == rest[k];
        }
      }
      SortedCons(s[0], rest);
      assert s == [s[0]] + s[1..];
      [s[0]] + rest
  }

  /** Adds every genre of one row. */
  function InsertGenres(s: seq<string>, genres: seq<string>): (r: seq<string>)
    requires StrictlySorted(s)
    ensures StrictlySorted(r)
    ensures forall x :: x in r <==> x in s || x in genres
    decreases |genres|
  {
    if |genres| == 0 then s
    else
      var r := InsertGenres(InsertGenre(s, genres[0]), genres[1..]);
      assert genres == [genres[0]] + genres[1..];
      r
  }

  /** Some accepted row lists the genre. */
  predicate SomeRowHas(rows: seq<MovieRow>, g: string) {
    exists k :: 0 <= k < |rows| && g in rows[k].genres
  }

  /** The genre dimensions: every genre of every accepted row, once each, in sorted order. */
  function GenreDimensions(rows: seq<MovieRow>): (dims: seq<string>)
    ensures StrictlySorted(dims)
    ensures forall g :: g in dims <==> SomeRowHas(rows, g)
  {
    if |rows| == 0 then []
    else
      var init := rows[..|rows| - 1];
      var dims := InsertGenres(GenreDimensions(init), rows[|rows| - 1].genres);
      forall g
        ensures g in dims <==> SomeRowHas(rows, g)
      {
        if SomeRowHas(rows, g) {
          var k :| 0 <= k < |rows| && g in rows[k].genres;
          if k < |rows| - 1 {
            assert init[k] == rows[k];
          }
        }
        if SomeRowHas(init, g) {
          var k :| 0 <= k < |init| && g in init[k].genres;
          assert rows[k] == init[k];
        }
      }
      dims
  }

  /**
   * The dimensions are the one sorted listing of the genre set: any strictly
   * sorted list of exactly the rows' genres equals them.
   */
  lemma GenreDimensionsUnique(rows: seq<MovieRow>, s: seq<string>)
    requires StrictlySorted(s)
    requires forall g :: g in s <==> SomeRowHas(rows, g)
    ensures s == GenreDimensions(rows)
  {
    StrictlySortedUnique(s, GenreDimensions(rows));
  }

  // ---------------------------------------------------------------------
  // Vectorising the catalog
  // ---------------------------------------------------------------------

  /** One row with its vector attached (the `end` handler's `{ ...item, vector }`). */
  function Vectorize(dims: seq<string>, row: MovieRow): Movie {
    Movie(row.id, row.title, row.overview, row.posterUrl, row.genres, row.keywords, row.rating,
          GenreVector(dims, row.genres, row.rating))
  }

  /** The `end` handler: fix the dimensions, then vectorise every accepted row in order. */
  function LoadCatalog(rows: seq<MovieRow>): (c: Catalog)
    ensures c.Consistent()
    ensures c.genreDimensions == GenreDimensions(rows)
    ensures |c.movies| == |rows|
    ensures forall i :: 0 <= i < |rows| ==> c.movies[i] == Vectorize(c.genreDimensions, rows[i])
  {
    var dims := GenreDimensions(rows);
    Catalog(dims, seq(|rows|, i requires 0 <= i < |rows| => Vectorize(dims, rows[i])))
  }

  /**
   * In the loaded catalog every genre of every movie has its own slot, so no
   * genre is ignored: slot `j` of a movie is 1 exactly when the movie has
   * genre `j`, and the vector is what `createVector` builds for it.
   */
  lemma CatalogVectors(rows: seq<MovieRow>, i: int)
    requires 0 <= i < |rows|
    ensures var c := LoadCatalog(rows);
      && (forall g :: g in rows[i].genres ==> g in c.genreDimensions)
      && (forall j :: 0 <= j < |c.genreDimensions| ==>
            (c.movies[i].vector[j] == 1.0 <==> c.genreDimensions[j] in rows[i].genres)
            && (c.movies[i].vector[j] == 0.0 <==> c.genreDimensions[j] !in rows[i].genres))
      && c.movies[i].vector[|c.genreDimensions|] == rows[i].rating / 10.0
  {
    var c := LoadCatalog(rows);
    forall g | g in rows[i].genres
      ensures g in c.genreDimensions
    {
      assert SomeRowHas(rows, g);
    }
  }

  /** Listing a genre twice, or in another order, gives the same movie vector. */
  lemma GenreVectorDependsOnSet(dims: seq<string>, gs: seq<string>, hs: seq<string>, rating: real)
    requires forall g :: g in gs <==> g in hs
    ensures GenreVector(dims, gs, rating) == GenreVector(dims, hs, rating)
  {
    assert forall i :: 0 <= i < |dims| ==> (dims[i] in gs <==> dims[i] in hs);
  }

  /** A genre outside the dimensions leaves the movie vector unchanged. */
  lemma UnknownGenreIgnored(dims: seq<string>, gs: seq<string>, g: string, rating: real)
    requires g !in dims
    ensures GenreVector(dims, gs + [g], rating) == GenreVector(dims, gs, rating)
  {
    forall i | 0 <= i < |dims|
      ensures dims[i] in gs + [g] <==> dims[i] in gs
    {
      assert dims[i] != g;
    }
  }

  /** A weight for a genre outside the dimensions leaves the mood vector unchanged. */
  lemma UnknownWeightIgnored(dims: seq<string>, weights: Record<real>, g: string, w: real)
    requires g !in dims && !HasKey(weights, g)
    ensures WeightVector(dims, weights + [(g, w)]) == WeightVector(dims, weights)
  {
    forall i | 0 <= i < |dims|
      ensures WeightOf(weights + [(g, w)], dims[i]) == WeightOf(weights, dims[i])
    {
      assert dims[i] != g;
      SetNewKey(weights, g, w);
      SetGet(weights, g, w, dims[i]);
    }
  }
}

=== FILE: ranking.dfy ===
/**
 * The ranking step every recommendation mode ends with:
 * `scored.sort((a, b) => b.score - a.score).slice(0, limit)`.
 *
 * `Array.prototype.sort` is stable, so a conforming sort with this comparator
 * returns the one permutation that is non-increasing by score and keeps
 * equally scored entries in their input order. `SortByScore` is an insertion
 * sort; `SortByScoreSorted`, `SortByScorePermutes` and `SortByScoreStable`
 * show it has those properties and `StableOrderUnique` that nothing else does.
 */
module Ranking {
  import opened SeqUtil
  import opened MovieService

  /** `RecommendationResult`: a catalog movie and its score. */
  datatype Scored = Scored(movie: Movie, score: real)

  /** Non-increasing by score. */
  predicate SortedDesc(s: seq<Scored>) {
    forall i, j :: 0 <= i < j < |s| ==> s[i].score >= s[j].score
  }

  /** The entries with score `v`, in their order in `s`. */
  function WithScore(s: seq<Scored>, v: real): seq<Scored> {
    if |s| == 0 then []
    else (if s[0].score == v then [s[0]] else []) + WithScore(s[1..], v)
  }

  lemma {:induction false} WithScoreEmpty(s: seq<Scored>, v: real)
    ensures WithScore(s, v) == [] <==> forall k :: 0 <= k < |s| ==> s[k].score != v
  {
    if |s| > 0 {
      WithScoreEmpty(s[1..], v);
      assert forall k :: 1 <= k < |s| ==> s[k] == s[1..][k - 1];
    }
  }

  /** Puts `x` in front of the first entry that does not score higher. */
  function Insert(x: Scored, s: seq<Scored>): (r: seq<Scored>)
    ensures |r| == |s| + 1
    ensures multiset(r) == multiset(s) + multiset{x}
  {
    if |s| == 0 || s[0].score <= x.score then
      [x] + s
    else
      assert s == [s[0]] + s[1..];
      [s[0]] + Insert(x, s[1..])
  }

  lemma {:induction false} InsertSorted(x: Scored, s: seq<Scored>)
    requires SortedDesc(s)
    ensures SortedDesc(Insert(x, s))
  {
    if |s| > 0 && x.score < s[0].score {
      InsertSorted(x, s[1..]);
      var rest := Insert(x, s[1..]);
      forall k | 0 <= k < |rest|
        ensures rest[k].score <= s[0].score
      {
        assert rest[k] in multiset(rest);
        if rest[k] != x {
          assert rest[k] in multiset(s[1..]);
          var p :| 0 <= p < |s| - 1 && s[1..][p] == rest[k];
          assert s[p + 1] == rest[k];
        }
      }
      assert Insert(x, s) == [s[0]] + rest;
    }
  }

  /** Inserting `x` puts it at the head of the entries with its score and moves no other entry. */
  lemma {:induction false} InsertWithScore(x: Scored, s: seq<Scored>, v: real)
    ensures WithScore(Insert(x, s), v) == if x.score == v then [x] + WithScore(s, v) else WithScore(s, v)
  {
    if |s| == 0 || s[0].score <= x.score {
      assert ([x] + s)[1..] == s;
    } else {
      InsertWithScore(x, s[1..], v);
      assert ([s[0]] + Insert(x, s[1..]))[1..] == Insert(x, s[1..]);
    }
  }

  /** The stable sort by descending score. */
  function SortByScore(s: seq<Scored>): seq<Scored> {
    if |s| == 0 then [] else Insert(s[0], SortByScore(s[1..]))
  }

  lemma {:induction false} SortByScoreSorted(s: seq<Scored>)
    ensures SortedDesc(SortByScore(s))
  {
    if |s| > 0 {
      SortByScoreSorted(s[1..]);
      InsertSorted(s[0], SortByScore(s[1..]));
    }
  }

  lemma {:induction false} SortByScorePermutes(s: seq<Scored>)
    ensures |SortByScore(s)| == |s|
    ensures multiset(SortByScore(s)) == multiset(s)
  {
    if |s| > 0 {
      SortByScorePermutes(s[1..]);
      assert s == [s[0]] + s[1..];
    }
  }

  /** Entries of equal score keep their input order. */
  lemma {:induction false} SortByScoreStable(s: seq<Scored>, v: real)
    ensures WithScore(SortByScore(s), v) == WithScore(s, v)
  {
    if |s| > 0 {
      SortByScoreStable(s[1..], v);
      InsertWithScore(s[0], SortByScore(s[1..]), v);
    }
  }

  /**
   * Two non-increasing sequences that list the entries of every score in the
   * same order are equal: the stable descending sort has one possible outcome.
   */
  lemma {:induction false} StableOrderUnique(t: seq<Scored>, u: seq<Scored>)
    requires SortedDesc(t) && SortedDesc(u)
    requires forall v :: WithScore(t, v) == WithScore(u, v)
    ensures t == u
    decreases |t|
  {
    if |t| == 0 || |u| == 0 {
      if |t| > 0 {
        WithScoreEmpty(u, t[0].score);
        WithScoreEmpty(t, t[0].score);
      }
      if |u| > 0 {
        WithScoreEmpty(t, u[0].score);
        WithScoreEmpty(u, u[0].score);
      }
    } else {
      var m := t[0].score;
      WithScoreEmpty(t, u[0].score);
      WithScoreEmpty(u, u[0].score);
      WithScoreEmpty(u, m);
      WithScoreEmpty(t, m);
      assert u[0].score == m;
      assert WithScore(t, m) == [t[0]] + WithScore(t[1..], m);
      assert WithScore(u, m) == [u[0]] + WithScore(u[1..], m);
      assert t[0] == u[0] by {
        assert WithScore(t, m)[0] == t[0] && WithScore(u, m)[0] == u[0];
      }
      forall v
        ensures WithScore(t[1..], v) == WithScore(u[1..], v)
      {
        var p := if t[0].score == v then [t[0]] else [];
        assert WithScore(t, v) == p + WithScore(t[1..], v);
        assert WithScore(u, v) == p + WithScore(u[1..], v);
        assert WithScore(t[1..], v) == WithScore(t, v)[|p|..];
        assert WithScore(u[1..], v) == WithScore(u, v)[|p|..];
      }
      StableOrderUnique(t[1..], u[1..]);
      assert t == [t[0]] + t[1..] && u == [u[0]] + u[1..];
    }
  }

  /** Where `slice(0, limit)` stops: a negative limit counts from the end. */
  function SliceEnd(n: nat, limit: int): (e: nat)
    ensures e <= n
    ensures 0 <= limit ==> e == Min(limit, n)
    ensures limit < 0 ==> e == Max(n + limit, 0)
  {
    if limit < 0 then (if n + limit < 0 then 0 else n + limit)
    else if limit < n then limit else n
  }

  /**
   * Sort, then keep the first `limit` entries: the result is a non-increasing
   * prefix of the stable sort, no longer than `limit`, taken from the input.
   */
  function Rank(scored: seq<Scored>, limit: int): (r: seq<Scored>)
    ensures SortedDesc(r)
    ensures 0 <= limit ==> |r| == Min(limit, |scored|)
    ensures r <= SortByScore(scored)
    ensures multiset(r) <= multiset(scored)
  {
    var sorted := SortByScore(scored);
    SortByScoreSorted(scored);
    SortByScorePermutes(scored);
    var r := sorted[..SliceEnd(|sorted|, limit)];
    assert sorted == r + sorted[|r|..];
    r
  }

  /** What the limit cuts off scores no higher than anything it keeps. */
  lemma RankKeepsBest(scored: seq<Scored>, limit: int)
    ensures forall x, i :: x in multiset(scored) - multiset(Rank(scored, limit)) && 0 <= i < |Rank(scored, limit)|
              ==> x.score <= Rank(scored, limit)[i].score
  {
    var sorted := SortByScore(scored);
    SortByScoreSorted(scored);
    SortByScorePermutes(scored);
    var r := Rank(scored, limit);
    var rest := sorted[|r|..];
    assert sorted == r + rest;
    assert multiset(sorted) == multiset(r) + multiset(rest);
    forall x, i | x in multiset(scored) - multiset(r) && 0 <= i < |r|
      ensures x.score <= r[i].score
    {
      assert x in multiset(rest);
      var j :| 0 <= j < |rest| && rest[j] == x;
      assert sorted[|r| + j] == x && sorted[i] == r[i];
    }
  }

  /** Every ranked entry is one of the scored entries. */
  lemma RankFromInput(scored: seq<Scored>, limit: int, i: int)
    requires 0 <= i < |Rank(scored, limit)|
    ensures Rank(scored, limit)[i] in scored
  {
    var r := Rank(scored, limit);
    assert r[i] in multiset(r);
  }
}

=== FILE: recommendation_service.dfy ===
/**
 * `RecommendationService`: the four ranking modes over the loaded catalog.
 *
 * Each mode builds a query vector, scores a list of candidate movies against
 * it, sorts the scores in descending order and keeps the first `limit`.
 * Modes differ in the query vector and the candidates:
 *   - `Recommend`: the vector of the first movie with the requested title;
 *     every movie with that movie's id is excluded;
 *   - `RecommendByGenres`: the mood vector of the genre weights; nothing is
 *     excluded;
 *   - `RecommendByTasteProfile`: the mean vector of the selected movies;
 *     every selected id is excluded;
 *   - `RecommendByFusion`: the blend of two titles' vectors; both ids are
 *     excluded.
 * The modes call the vector arithmetic directly, not the similarity
 * calculator: their scores are not clamped, and a metric other than
 * "euclidean" or "manhattan" means cosine.
 */
module RecommendationService {
  import opened Wrappers
  import opened Errors
  import opened SeqUtil
  import opened Strings
  import opened Records
  import opened LinearAlgebra
  import opened SimilarityCalculator
  import opened MovieService
  import opened Ranking

  const DefaultLimit: int := 12
  const DefaultMoodLimit: int := 20

  datatype MoodResult = MoodResult(recommendations: seq<Scored>, queryVector: Vector)

  datatype FusionResult = FusionResult(recommendations: seq<Scored>, fusionVector: Vector)

  // ---------------------------------------------------------------------
  // Lookup and candidate lists
  // ---------------------------------------------------------------------

  /** Title equality as the modes test it: both sides lower-cased. */
  predicate SameTitle(m: Movie, title: string) {
    Lower(m.title) == Lower(title)
  }

  /** `movies.find(...)` by title: the position of the first match, if any. */
  function FindTitle(movies: seq<Movie>, title: string): (r: Option<nat>)
    ensures r.None? <==> forall i :: 0 <= i < |movies| ==> !SameTitle(movies[i], title)
    ensures r.Some? ==> r.value < |movies| && SameTitle(movies[r.value], title)
    ensures r.Some? ==> forall j :: 0 <= j < r.value ==> !SameTitle(movies[j], title)
  {
    if |movies| == 0 then None
    else if SameTitle(movies[0], title) then Some(0)
    else
      assert forall i :: 1 <= i < |movies| ==> movies[i] == movies[1..][i - 1];
      match FindTitle(movies[1..], title)
      case None => None
      case Some(k) => Some(k + 1)
  }

  /** `movies.filter(m => !ids.includes(m.id))`. */
  function Exclude(movies: seq<Movie>, ids: seq<int>): (r: seq<Movie>)
    ensures |r| <= |movies|
    ensures forall i :: 0 <= i < |r| ==> r[i] in movies && r[i].id !in ids
    ensures forall k :: 0 <= k < |movies| && movies[k].id !in ids ==> movies[k] in r
  {
    if |movies| == 0 then []
    else
      assert forall i :: 1 <= i < |movies| ==> movies[i] == movies[1..][i - 1];
      var rest := Exclude(movies[1..], ids);
      if movies[0].id in ids then rest else [movies[0]] + rest
  }

  /** Excluding from a concatenation excludes from each part: the kept movies stay in catalog order. */
  lemma {:induction false} ExcludeAppend(a: seq<Movie>, b: seq<Movie>, ids: seq<int>)
    ensures Exclude(a + b, ids) == Exclude(a, ids) + Exclude(b, ids)
  {
    if |a| > 0 {
      assert (a + b)[1..] == a[1..] + b;
      ExcludeAppend(a[1..], b, ids);
    } else {
      assert a + b == b;
    }
  }

  /** A single movie is kept exactly when its id is not excluded. */
  lemma ExcludeSingle(m: Movie, ids: seq<int>)
    ensures Exclude([m], ids) == if m.id in ids then [] else [m]
  {
    assert [m][1..] == [];
  }

  /** Nothing excluded and nothing to exclude: the catalog is kept whole, duplicates included. */
  lemma {:induction false} ExcludeNone(movies: seq<Movie>, ids: seq<int>)
    requires forall k :: 0 <= k < |movies| ==> movies[k].id !in ids
    ensures Exclude(movies, ids) == movies
  {
    if |movies| > 0 {
      ExcludeNone(movies[1..], ids);
      assert movies == [movies[0]] + movies[1..];
    }
  }

  /** `movies.filter(m => ids.includes(m.id))`, in catalog order. */
  function Selected(movies: seq<Movie>, ids: seq<int>): (r: seq<Movie>)
    ensures |r| <= |movies|
    ensures forall i :: 0 <= i < |r| ==> r[i] in movies && r[i].id in ids
    ensures forall k :: 0 <= k < |movies| && movies[k].id in ids ==> movies[k] in r
  {
    if |movies| == 0 then []
    else
      assert forall i :: 1 <= i < |movies| ==> movies[i] == movies[1..][i - 1];
      var rest := Selected(movies[1..], ids);
      if movies[0].id in ids then [movies[0]] + rest else rest
  }

  /** Selecting from a concatenation selects from each part: catalog order and repeated entries are kept. */
  lemma {:induction false} SelectedAppend(a: seq<Movie>, b: seq<Movie>, ids: seq<int>)
    ensures Selected(a + b, ids) == Selected(a, ids) + Selected(b, ids)
  {
    if |a| > 0 {
      assert (a + b)[1..] == a[1..] + b;
      SelectedAppend(a[1..], b, ids);
    } else {
      assert a + b == b;
    }
  }

  /** A single movie is selected exactly when its id is among the given ones. */
  lemma SelectedSingle(m: Movie, ids: seq<int>)
    ensures Selected([m], ids) == if m.id in ids then [m] else []
  {
    assert [m][1..] == [];
  }

  // ---------------------------------------------------------------------
  // Scores
  // ---------------------------------------------------------------------

  /** The per-movie score of `recommend` and `recommendByGenres`. */
  function ScoreBy(sqrt: real -> real, metric: string, q: Vector, v: Vector): real
    requires IsSqrt(sqrt)
    requires |q| == |v|
  {
    if metric == "euclidean" then DistanceScore(Euclid(sqrt, q, v))
    else if metric == "manhattan" then DistanceScore(Manhattan(q, v))
    else Cos(sqrt, q, v)
  }

  predicate VectorsOfLength(movies: seq<Movie>, n: nat) {
    forall k :: 0 <= k < |movies| ==> |movies[k].vector| == n
  }

  /** Every candidate paired with its score against `q`. */
  function ScoreAll(sqrt: real -> real, metric: string, q: Vector, movies: seq<Movie>): (r: seq<Scored>)
    requires IsSqrt(sqrt)
    requires VectorsOfLength(movies, |q|)
    ensures |r| == |movies|
    ensures forall k :: 0 <= k < |movies| ==> r[k] == Scored(movies[k], ScoreBy(sqrt, metric, q, movies[k].vector))
  {
    seq(|movies|, k requires 0 <= k < |movies| => Scored(movies[k], ScoreBy(sqrt, metric, q, movies[k].vector)))
  }

  /** The movie occurs in the ranked list. */
  predicate Listed(r: seq<Scored>, m: Movie) {
    exists j :: 0 <= j < |r| && r[j].movie == m
  }

  /** What every mode returns, in terms of its query vector and candidate list. */
  predicate RankedAgainst(sqrt: real -> real, metric: string, q: Vector, candidates: seq<Movie>, limit: int, r: seq<Scored>)
    requires IsSqrt(sqrt)
    requires VectorsOfLength(candidates, |q|)
  {
    && SortedDesc(r)
    && (0 <= limit ==> |r| == Min(limit, |candidates|))
    && (forall i :: 0 <= i < |r| ==> r[i].movie in candidates && r[i].score == ScoreBy(sqrt, metric, q, r[i].movie.vector))
    && (forall k, i :: 0 <= k < |candidates| && 0 <= i < |r| && !Listed(r, candidates[k])
          ==> ScoreBy(sqrt, metric, q, candidates[k].vector) <= r[i].score)
    && r <= SortByScore(ScoreAll(sqrt, metric, q, candidates))
  }

  /**
   * Score, sort descending, keep `limit`: the result is non-increasing, as
   * long as the limit allows, made of candidates with their scores, and no
   * candidate left out scores higher than one kept.
   */
  function RankAgainst(sqrt: real -> real, metric: string, q: Vector, candidates: seq<Movie>, limit: int): (r: seq<Scored>)
    requires IsSqrt(sqrt)
    requires VectorsOfLength(candidates, |q|)
    ensures RankedAgainst(sqrt, metric, q, candidates, limit, r)
  {
    var scored := ScoreAll(sqrt, metric, q, candidates);
    var r := Rank(scored, limit);
    forall i | 0 <= i < |r|
      ensures r[i].movie in candidates && r[i].score == ScoreBy(sqrt, metric, q, r[i].movie.vector)
    {
      RankFromInput(scored, limit, i);
    }
    RankKeepsBest(scored, limit);
    forall k, i | 0 <= k < |candidates| && 0 <= i < |r| && !Listed(r, candidates[k])
      ensures ScoreBy(sqrt, metric, q, candidates[k].vector) <= r[i].score
    {
      var x := scored[k];
      assert x in multiset(scored);
      assert x !in multiset(r);
    }
    r
  }

  // ---------------------------------------------------------------------
  // Centroid and blend
  // ---------------------------------------------------------------------

  function Vectors(movies: seq<Movie>): (vs: seq<Vector>)
    ensures |vs| == |movies| && forall k :: 0 <= k < |movies| ==> vs[k] == movies[k].vector
  {
    seq(|movies|, k requires 0 <= k < |movies| => movies[k].vector)
  }

  predicate SameLength(vs: seq<Vector>, n: nat) {
    forall k :: 0 <= k < |vs| ==> |vs[k]| == n
  }

  /** v1[i] + ... + vk[i]. */
  function ColumnSum(vs: seq<Vector>, i: nat): real
    requires forall k :: 0 <= k < |vs| ==> i < |vs[k]|
  {
    if |vs| == 0 then 0.0 else ColumnSum(vs[..|vs| - 1], i) + vs[|vs| - 1][i]
  }

  /** The component-wise mean of equally long vectors. */
  function Mean(vs: seq<Vector>): Vector
    requires 0 < |vs| && SameLength(vs, |vs[0]|)
  {
    seq(|vs[0]|, i requires 0 <= i < |vs[0]| => ColumnSum(vs, i) / (|vs| as real))
  }

  /**
   * The taste-profile centroid as the service computes it: a zero vector as
   * long as the first vector, every vector added in component by component,
   * then every component divided by the number of vectors.
   */
  method ComputeCentroid(vs: seq<Vector>) returns (c: Vector)
    requires 0 < |vs| && SameLength(vs, |vs[0]|)
    ensures |c| == |vs[0]|
    ensures forall i :: 0 <= i < |c| ==> c[i] * (|vs| as real) == ColumnSum(vs, i)
    ensures c == Mean(vs)
  {
    var n := |vs[0]|;
    var sum := seq(n, _ => 0.0);
    for k := 0 to |vs|
      invariant |sum| == n
      invariant forall i :: 0 <= i < n ==> sum[i] == ColumnSum(vs[..k], i)
    {
      assert vs[..k + 1][..k] == vs[..k];
      var v := vs[k];
      for i := 0 to n
        invariant |sum| == n
        invariant forall j :: 0 <= j < i ==> sum[j] == ColumnSum(vs[..k + 1], j)
        invariant forall j :: i <= j < n ==> sum[j] == ColumnSum(vs[..k], j)
      {
        sum := sum[i := sum[i] + v[i]];
      }
    }
    assert vs[..|vs|] == vs;
    c := seq(n, i requires 0 <= i < n => sum[i] / (|vs| as real));
  }

  /** The mean of a single vector is that vector. */
  lemma MeanSingle(v: Vector)
    ensures Mean([v]) == v
  {
    forall i | 0 <= i < |v|
      ensures ColumnSum([v], i) == v[i]
    {
      assert [v][..0] == [];
    }
  }

  lemma {:induction false} ColumnSumCopies(v: Vector, k: nat, i: nat)
    requires i < |v|
    ensures ColumnSum(seq(k, _ => v), i) == (k as real) * v[i]
  {
    if k > 0 {
      assert seq(k, _ => v)[..k - 1] == seq(k - 1, _ => v);
      ColumnSumCopies(v, k - 1, i);
    }
  }

  /** Selecting the same vector any number of times gives that vector back. */
  lemma MeanCopies(v: Vector, k: nat)
    requires 0 < k
    ensures Mean(seq(k, _ => v)) == v
  {
    forall i | 0 <= i < |v|
      ensures Mean(seq(k, _ => v))[i] == v[i]
    {
      ColumnSumCopies(v, k, i);
    }
  }

  /** `a[i] * ratio + b[i] * (1 - ratio)`. */
  function Blend(a: Vector, b: Vector, ratio: real): (f: Vector)
    requires |a| == |b|
    ensures |f| == |a|
  {
    seq(|a|, i requires 0 <= i < |a| => a[i] * ratio + b[i] * (1.0 - ratio))
  }

  /** Ratio 1 gives the first vector, ratio 0 the second, and blending a vector with itself changes nothing. */
  lemma BlendEndpoints(a: Vector, b: Vector, ratio: real)
    requires |a| == |b|
    ensures Blend(a, b, 1.0) == a
    ensures Blend(a, b, 0.0) == b
    ensures Blend(a, a, ratio) == a
  {
    assert forall i :: 0 <= i < |a| ==> a[i] * ratio + a[i] * (1.0 - ratio) == a[i];
  }

  // ---------------------------------------------------------------------
  // The four modes
  // ---------------------------------------------------------------------

  /** Catalog movies are scored against one another without a length mismatch. */
  lemma CatalogLengths(c: Catalog, movies: seq<Movie>)
    requires c.Consistent()
    requires forall k :: 0 <= k < |movies| ==> movies[k] in c.movies
    ensures VectorsOfLength(movies, |c.genreDimensions| + 1)
  {
    forall k | 0 <= k < |movies|
      ensures |movies[k].vector| == |c.genreDimensions| + 1
    {
      var p :| 0 <= p < |c.movies| && c.movies[p] == movies[k];
    }
  }

  /**
   * `recommend`: not found when no title matches; otherwise the first match
   * is the target, and every other-id movie is ranked against its vector.
   */
  function Recommend(sqrt: real -> real, c: Catalog, targetTitle: string, limit: int := DefaultLimit, metric: string := "cosine")
    : (r: Result<seq<Scored>, Error>)
    requires IsSqrt(sqrt) && c.Consistent()
    ensures r.Failure? <==> forall i :: 0 <= i < |c.movies| ==> !SameTitle(c.movies[i], targetTitle)
    ensures r.Failure? ==> r.error == TitleNotFound(targetTitle)
    ensures r.Success? ==>
      var t := c.movies[FindTitle(c.movies, targetTitle).value];
      && SameTitle(t, targetTitle)
      && (forall i :: 0 <= i < |r.value| ==> r.value[i].movie.id != t.id)
      && RankedAgainst(sqrt, metric, t.vector, Exclude(c.movies, [t.id]), limit, r.value)
  {
    match FindTitle(c.movies, targetTitle)
    case None => Failure(TitleNotFound(targetTitle))
    case Some(p) =>
      var target := c.movies[p];
      var candidates := Exclude(c.movies, [target.id]);
      CatalogLengths(c, candidates);
      Success(RankAgainst(sqrt, metric, target.vector, candidates, limit))
  }

  /** `recommendByGenres`: every catalog movie ranked against the mood vector, which is returned too. */
  function RecommendByGenres(sqrt: real -> real, c: Catalog, genreWeights: Record<real>, limit: int := DefaultMoodLimit, metric: string := "cosine")
    : (r: MoodResult)
    requires IsSqrt(sqrt) && c.Consistent()
    requires DistinctKeys(genreWeights)
    ensures r.queryVector == WeightVector(c.genreDimensions, genreWeights)
    ensures |r.queryVector| == |c.genreDimensions| + 1
    ensures RankedAgainst(sqrt, metric, r.queryVector, c.movies, limit, r.recommendations)
  {
    var q := WeightVector(c.genreDimensions, genreWeights);
    CatalogLengths(c, c.movies);
    MoodResult(RankAgainst(sqrt, metric, q, c.movies, limit), q)
  }

  /**
   * `recommendByTasteProfile`: an error when no catalog id is among the
   * given ones; otherwise every movie whose id was not given is ranked by
   * cosine against the mean vector of the movies whose id was.
   */
  function RecommendByTasteProfile(sqrt: real -> real, c: Catalog, movieIds: seq<int>, limit: int := DefaultLimit)
    : (r: Result<seq<Scored>, Error>)
    requires IsSqrt(sqrt) && c.Consistent()
    ensures r.Failure? <==> forall k :: 0 <= k < |c.movies| ==> c.movies[k].id !in movieIds
    ensures r.Failure? ==> r.error == NoValidSelection
    ensures r.Success? ==>
      var selected := Selected(c.movies, movieIds);
      && 0 < |selected| && SameLength(Vectors(selected), |selected[0].vector|)
      && (forall i :: 0 <= i < |r.value| ==> r.value[i].movie.id !in movieIds)
      && RankedAgainst(sqrt, "cosine", Mean(Vectors(selected)), Exclude(c.movies, movieIds), limit, r.value)
  {
    var selected := Selected(c.movies, movieIds);
    if |selected| == 0 then
      Failure(NoValidSelection)
    else
      var vs := Vectors(selected);
      CatalogLengths(c, selected);
      var centroid := Mean(vs);
      var candidates := Exclude(c.movies, movieIds);
      CatalogLengths(c, candidates);
      Success(RankAgainst(sqrt, "cosine", centroid, candidates, limit))
  }

  /**
   * `recommendByFusion`: not found unless both titles match; otherwise every
   * movie with neither source id is ranked by cosine against the blend of
   * the two sources' vectors, which is returned too.
   */
  function RecommendByFusion(sqrt: real -> real, c: Catalog, titleA: string, titleB: string, ratio: real, limit: int := DefaultLimit)
    : (r: Result<FusionResult, Error>)
    requires IsSqrt(sqrt) && c.Consistent()
    ensures r.Failure? <==> FindTitle(c.movies, titleA).None? || FindTitle(c.movies, titleB).None?
    ensures r.Failure? ==> r.error == FusionTitleNotFound
    ensures r.Success? ==>
      var a := c.movies[FindTitle(c.movies, titleA).value];
      var b := c.movies[FindTitle(c.movies, titleB).value];
      && |a.vector| == |b.vector|
      && r.value.fusionVector == Blend(a.vector, b.vector, ratio)
      && (forall i :: 0 <= i < |r.value.recommendations| ==> r.value.recommendations[i].movie.id !in {a.id, b.id})
      && RankedAgainst(sqrt, "cosine", r.value.fusionVector, Exclude(c.movies, [a.id, b.id]), limit, r.value.recommendations)
  {
    match (FindTitle(c.movies, titleA), FindTitle(c.movies, titleB))
    case (Some(p), Some(q)) =>
      var a := c.movies[p];
      var b := c.movies[q];
      var fusion := Blend(a.vector, b.vector, ratio);
      var candidates := Exclude(c.movies, [a.id, b.id]);
      CatalogLengths(c, candidates);
      Success(FusionResult(RankAgainst(sqrt, "cosine", fusion, candidates, limit), fusion))
    case _ => Failure(FusionTitleNotFound)
  }

  // ---------------------------------------------------------------------
  // Properties across modes
  // ---------------------------------------------------------------------

  /** Taste mode with a single selected movie ranks against exactly that movie's vector. */
  lemma TasteSingleSelection(c: Catalog, movieIds: seq<int>)
    requires c.Consistent()
    requires |Selected(c.movies, movieIds)| == 1
    ensures Mean(Vectors(Selected(c.movies, movieIds))) == Selected(c.movies, movieIds)[0].vector
  {
    var s := Selected(c.movies, movieIds);
    assert Vectors(s) == [s[0].vector];
    MeanSingle(s[0].vector);
  }

  /** Fusion at ratio 1 ranks against the first title's vector, at ratio 0 against the second's. */
  lemma FusionEndpoints(sqrt: real -> real, c: Catalog, titleA: string, titleB: string, limit: int)
    requires IsSqrt(sqrt) && c.Consistent()
    requires FindTitle(c.movies, titleA).Some? && FindTitle(c.movies, titleB).Some?
    ensures RecommendByFusion(sqrt, c, titleA, titleB, 1.0, limit).value.fusionVector
            == c.movies[FindTitle(c.movies, titleA).value].vector
    ensures RecommendByFusion(sqrt, c, titleA, titleB, 0.0, limit).value.fusionVector
            == c.movies[FindTitle(c.movies, titleB).value].vector
  {
    var a := c.movies[FindTitle(c.movies, titleA).value];
    var b := c.movies[FindTitle(c.movies, titleB).value];
    BlendEndpoints(a.vector, b.vector, 0.0);
  }

  /**
   * The modes' score agrees with the similarity calculator's on the two
   * distances and, up to the clamp, on cosine; a metric the calculator
   * rejects is scored as cosine.
   */
  lemma ScoreByAgainstCalculator(sqrt: real -> real, metric: string, q: Vector, v: Vector)
    requires IsSqrt(sqrt)
    requires 0 < |q| == |v|
    ensures metric == "euclidean" || metric == "manhattan" ==>
              CalculateSimilarity(sqrt, q, v, metric) == Success(SimilarityScore(ScoreBy(sqrt, metric, q, v), metric))
    ensures metric == "cosine" ==>
              CalculateSimilarity(sqrt, q, v, metric) == Success(SimilarityScore(Clamp(ScoreBy(sqrt, metric, q, v)), metric))
    ensures !KnownMetric(metric) ==>
              CalculateSimilarity(sqrt, q, v, metric).Failure? && ScoreBy(sqrt, metric, q, v) == Cos(sqrt, q, v)
  {
  }
}

=== FILE: records.dfy ===
/**
 * Plain JavaScript objects used as string-keyed records, such as the
 * genre-weight map `Record<string, number>`. A record is the list of its
 * entries in insertion order, the order `Object.entries` reports.
 */
module Records {
  import opened Wrappers

  type Record<V> = seq<(string, V)>

  /** No key occurs twice, which every JavaScript object guarantees. */
  predicate DistinctKeys<V>(r: Record<V>) {
    forall i, j :: 0 <= i < j < |r| ==> r[i].0 != r[j].0
  }

  predicate HasKey<V>(r: Record<V>, k: string) {
    exists i :: 0 <= i < |r| && r[i].0 == k
  }

  /** `r[k]`, with `None` for a missing key. */
  function Get<V>(r: Record<V>, k: string): (v: Option<V>)
    ensures v.None? <==> !HasKey(r, k)
    ensures v.Some? ==> (k, v.value) in r
    ensures DistinctKeys(r) ==> forall i :: 0 <= i < |r| && r[i].0 == k ==> v == Some(r[i].1)
  {
    if |r| == 0 then None
    else if r[0].0 == k then Some(r[0].1)
    else
      assert forall i :: 1 <= i < |r| ==> r[i] == r[1..][i - 1];
      Get(r[1..], k)
  }

  /**
   * `r[k] = v` on a copy (also `{ ...r, [k]: v }`): an existing key keeps its
   * place and gets the new value, a new key is added at the end
   * (`SetGet`, `SetNewKey`, `SetExistingKey`, `SetDistinct`).
   */
  function Set<V>(r: Record<V>, k: string, v: V): (r': Record<V>)
    ensures |r'| == if HasKey(r, k) then |r| else |r| + 1
  {
    if |r| == 0 then [(k, v)]
    else if r[0].0 == k then [(k, v)] + r[1..]
    else
      GetCons(r[0], r[1..]);
      assert r == [r[0]] + r[1..];
      [r[0]] + Set(r[1..], k, v)
  }

  /** After setting `k`, `k` reads as the new value and every other key as before. */
  lemma {:induction false} SetGet<V>(r: Record<V>, k: string, v: V, k': string)
    ensures Get(Set(r, k, v), k') == if k' == k then Some(v) else Get(r, k')
  {
    if |r| > 0 {
      GetCons(r[0], r[1..]);
      assert r == [r[0]] + r[1..];
      if r[0].0 == k {
        GetCons((k, v), r[1..]);
      } else {
        SetGet(r[1..], k, v, k');
        GetCons(r[0], Set(r[1..], k, v));
      }
    }
  }

  /** `SetGet` for every key at once. */
  lemma SetGets<V>(r: Record<V>, k: string, v: V)
    ensures Get(Set(r, k, v), k) == Some(v)
    ensures forall k' :: k' != k ==> Get(Set(r, k, v), k') == Get(r, k')
  {
    SetGet(r, k, v, k);
    forall k' | k' != k
      ensures Get(Set(r, k, v), k') == Get(r, k')
    {
      SetGet(r, k, v, k');
    }
  }

  /** A new key goes at the end. */
  lemma {:induction false} SetNewKey<V>(r: Record<V>, k: string, v: V)
    ensures !HasKey(r, k) ==> Set(r, k, v) == r + [(k, v)]
  {
    if |r| > 0 && !HasKey(r, k) {
      GetCons(r[0], r[1..]);
      assert r == [r[0]] + r[1..];
      SetNewKey(r[1..], k, v);
      assert [r[0]] + (r[1..] + [(k, v)]) == r + [(k, v)];
    }
  }

  /** An existing key keeps its place: the keys, in order, are unchanged. */
  lemma {:induction false} SetExistingKey<V>(r: Record<V>, k: string, v: V)
    ensures HasKey(r, k) ==> |Set(r, k, v)| == |r| && forall i :: 0 <= i < |r| ==> Set(r, k, v)[i].0 == r[i].0
  {
    if !HasKey(r, k) {
      return;
    }
    GetCons(r[0], r[1..]);
    assert r == [r[0]] + r[1..];
    if r[0].0 != k {
      SetExistingKey(r[1..], k, v);
      var rest := Set(r[1..], k, v);
      assert Set(r, k, v) == [r[0]] + rest;
      assert forall i :: 1 <= i < |r| ==> r[i] == r[1..][i - 1];
    }
  }

  /** Setting a key keeps the keys distinct. */
  lemma {:induction false} SetDistinct<V>(r: Record<V>, k: string, v: V)
    requires DistinctKeys(r)
    ensures DistinctKeys(Set(r, k, v))
  {
    if |r| > 0 && r[0].0 != k {
      var rest := Set(r[1..], k, v);
      DistinctCons(r[0], r[1..]);
      assert r == [r[0]] + r[1..];
      SetDistinct(r[1..], k, v);
      SetGet(r[1..], k, v, r[0].0);
      DistinctCons(r[0], rest);
    } else if |r| > 0 {
      DistinctCons(r[0], r[1..]);
      assert r == [r[0]] + r[1..];
      DistinctCons((k, v), r[1..]);
    }
  }

  /** Reading and searching a record with one more entry in front. */
  lemma GetCons<V>(x: (string, V), rest: Record<V>)
    ensures forall k :: Get([x] + rest, k) == if x.0 == k then Some(x.1) else Get(rest, k)
    ensures forall k :: HasKey([x] + rest, k) <==> x.0 == k || HasKey(rest, k)
  {
    var r := [x] + rest;
    assert r[1..] == rest;
    forall k
      ensures HasKey(r, k) <==> x.0 == k || HasKey(rest, k)
    {
      if x.0 == k {
        assert r[0] == x;
      }
      if HasKey(r, k) && x.0 != k {
        var i :| 0 <= i < |r| && r[i].0 == k;
        assert rest[i - 1] == r[i];
      }
      if HasKey(rest, k) {
        var i :| 0 <= i < |rest| && rest[i].0 == k;
        assert r[i + 1] == rest[i];
      }
    }
  }

  /** Key-distinctness of a record with one more entry in front. */
  lemma DistinctCons<V>(x: (string, V), rest: Record<V>)
    ensures DistinctKeys([x] + rest) <==> DistinctKeys(rest) && !HasKey(rest, x.0)
  {
    var r := [x] + rest;
    assert forall i :: 1 <= i < |r| ==> r[i] == rest[i - 1];
    if DistinctKeys(rest) && !HasKey(rest, x.0) {
      forall i, j | 0 <= i < j < |r|
        ensures r[i].0 != r[j].0
      {
        assert r[j] == rest[j - 1];
        if i > 0 {
          assert r[i] == rest[i - 1];
        }
      }
    }
    if DistinctKeys(r) {
      forall i, j | 0 <= i < j < |rest|
        ensures rest[i].0 != rest[j].0
      {
        assert r[i + 1] == rest[i] && r[j + 1] == rest[j];
      }
      forall j | 0 <= j < |rest|
        ensures rest[j].0 != x.0
      {
        assert r[j + 1] == rest[j] && r[0] == x;
      }
    }
  }

  /** `delete r[k]` on a copy: every entry with key `k` goes, the others keep their order. */
  function Delete<V>(r: Record<V>, k: string): (r': Record<V>)
    ensures forall i :: 0 <= i < |r'| ==> r'[i] in r && r'[i].0 != k
    ensures forall i :: 0 <= i < |r| && r[i].0 != k ==> r[i] in r'
    ensures !HasKey(r, k) ==> r' == r
  {
    if |r| == 0 then []
    else
      assert forall i :: 1 <= i < |r| ==> r[i] == r[1..][i - 1];
      var rest := Delete(r[1..], k);
      if r[0].0 == k then rest else [r[0]] + rest
  }

  /** After `delete r[k]` the key is gone and every other key reads as before. */
  lemma DeleteGet<V>(r: Record<V>, k: string)
    requires DistinctKeys(r)
    ensures Get(Delete(r, k), k) == None
    ensures forall k' :: k' != k ==> Get(Delete(r, k), k') == Get(r, k')
    ensures DistinctKeys(Delete(r, k))
  {
    var d := Delete(r, k);
    DeleteDistinct(r, k);
    forall k' | k' != k
      ensures Get(d, k') == Get(r, k')
    {
      if HasKey(r, k') {
        var i :| 0 <= i < |r| && r[i].0 == k';
        assert r[i] in d;
      }
    }
  }

  /** `Delete` leaves the keys distinct and the deleted key absent. */
  lemma {:induction false} DeleteDistinct<V>(r: Record<V>, k: string)
    requires DistinctKeys(r)
    ensures DistinctKeys(Delete(r, k))
    ensures !HasKey(Delete(r, k), k)
  {
    if |r| > 0 {
      var t := r[1..];
      assert r == [r[0]] + t;
      DistinctCons(r[0], t);
      DeleteDistinct(t, k);
      var rest := Delete(t, k);
      if r[0].0 != k {
        assert !HasKey(rest, r[0].0) by {
          forall i | 0 <= i < |rest|
            ensures rest[i].0 != r[0].0
          {
            assert rest[i] in t;
          }
        }
        DistinctCons(r[0], rest);
        GetCons(r[0], rest);
      }
    }
  }

  /** Deleting a key that was just added to a record without it gives the record back. */
  lemma DeleteAfterAdd<V>(r: Record<V>, k: string, v: V)
    requires !HasKey(r, k)
    ensures Delete(r + [(k, v)], k) == r
  {
    DeleteAppended(r, k, v);
  }

  lemma {:induction false} DeleteAppended<V>(r: Record<V>, k: string, v: V)
    requires !HasKey(r, k)
    ensures Delete(r + [(k, v)], k) == Delete(r, k)
  {
    if |r| > 0 {
      assert (r + [(k, v)])[1..] == r[1..] + [(k, v)];
      assert !HasKey(r[1..], k) by {
        assert forall i :: 1 <= i < |r| ==> r[i] == r[1..][i - 1];
      }
      DeleteAppended(r[1..], k, v);
    }
  }
}

=== FILE: seq_util.dfy ===
/** Small sequence and integer helpers shared by the model. */
module SeqUtil {

  function Min(a: int, b: int): int { if a <= b then a else b }

  function Max(a: int, b: int): int { if a >= b then a else b }

  /** Position of the first `x` in `s`, or -1 when there is none (`Array.prototype.indexOf`). */
  function IndexOf<T(==)>(s: seq<T>, x: T): (r: int)
    ensures -1 <= r < |s|
    ensures r == -1 <==> x !in s
    ensures 0 <= r ==> s[r] == x && x !in s[..r]
  {
    if |s| == 0 then -1
    else if s[0] == x then 0
    else
      var k := IndexOf(s[1..], x);
      if k == -1 then -1
      else
        assert s[..k + 1] == [s[0]] + s[1..][..k];
        k + 1
  }

  /** No element occurs twice. */
  predicate Distinct<T(==)>(s: seq<T>) {
    forall p, q :: 0 <= p < q < |s| ==> s[p] != s[q]
  }

  /** In a duplicate-free sequence every element is found at its own position. */
  lemma IndexOfDistinct<T>(s: seq<T>, i: int)
    requires Distinct(s)
    requires 0 <= i < |s|
    ensures IndexOf(s, s[i]) == i
  {
    assert forall r :: i < r <= |s| ==> s[..r][i] == s[i];
  }
}

=== FILE: similarity_calculator.dfy ===
/**
 * `SimilarityCalculatorService`: one similarity score in [0, 1] for a pair of
 * vectors under a named metric, and the same for a batch of candidates.
 *
 * The two distances are turned into similarities by `1 / (1 + d)`; every
 * score then passes through a clamp to [0, 1].
 */
module SimilarityCalculator {
  import opened Wrappers
  import opened Errors
  import opened LinearAlgebra

  /** The three metric names the service understands. */
  predicate KnownMetric(metric: string) {
    metric == "cosine" || metric == "euclidean" || metric == "manhattan"
  }

  datatype SimilarityScore = SimilarityScore(score: real, metric: string)

  /** `Math.max(0, Math.min(1, x))`. */
  function Clamp(x: real): (r: real)
    ensures 0.0 <= r <= 1.0
    ensures 0.0 <= x <= 1.0 ==> r == x
    ensures x < 0.0 ==> r == 0.0
    ensures 1.0 < x ==> r == 1.0
  {
    if x < 0.0 then 0.0 else if 1.0 < x then 1.0 else x
  }

  /** `1 / (1 + d)`: the similarity a distance stands for. */
  function DistanceScore(d: real): real
    requires 0.0 <= d
  {
    1.0 / (1.0 + d)
  }

  /** A distance maps into (0, 1], reaching 1 exactly at distance 0; the clamp never changes it. */
  lemma DistanceScoreRange(d: real)
    requires 0.0 <= d
    ensures 0.0 < DistanceScore(d) <= 1.0
    ensures DistanceScore(d) == 1.0 <==> d == 0.0
    ensures Clamp(DistanceScore(d)) == DistanceScore(d)
  {
    var r := DistanceScore(d);
    assert r * (1.0 + d) == 1.0;
    PositiveFactor(r, 1.0 + d);
    assert r * d == 1.0 - r;
    NonNegativeProduct(r, d);
  }

  /** A larger distance never gives a larger score. */
  lemma DistanceScoreAntitone(d: real, e: real)
    requires 0.0 <= d <= e
    ensures DistanceScore(e) <= DistanceScore(d)
  {
    var x := DistanceScore(d);
    var y := DistanceScore(e);
    assert x * (1.0 + d) == 1.0 && y * (1.0 + e) == 1.0;
    DistanceScoreRange(e);
    NonNegativeProduct(y, e - d);
    assert y * (1.0 + d) <= y * (1.0 + e);
    assert (x - y) * (1.0 + d) >= 0.0;
    PositiveFactor(x - y, 1.0 + d);
  }

  /** A product with a positive factor has the sign of the other factor. */
  lemma PositiveFactor(x: real, y: real)
    requires 0.0 < y
    ensures 0.0 < x * y ==> 0.0 < x
    ensures 0.0 <= x * y ==> 0.0 <= x
  {
  }

  lemma NonNegativeProduct(x: real, y: real)
    requires 0.0 <= x && 0.0 <= y
    ensures 0.0 <= x * y
  {
  }

  /**
   * `calculateSimilarity`: an empty vector scores 0 under any metric name;
   * otherwise the lengths must agree and the metric must be known.
   */
  function CalculateSimilarity(sqrt: real -> real, a: Vector, b: Vector, metric: string := "cosine"): (r: Result<SimilarityScore, Error>)
    requires IsSqrt(sqrt)
    ensures |a| == 0 || |b| == 0 ==> r == Success(SimilarityScore(0.0, metric))
    ensures 0 < |a| && 0 < |b| && |a| != |b| ==> r == Failure(VectorLengthMismatch(|a|, |b|))
    ensures 0 < |a| == |b| && !KnownMetric(metric) ==> r == Failure(UnknownMetric(metric))
    ensures r.Success? <==> |a| == 0 || |b| == 0 || (|a| == |b| && KnownMetric(metric))
    ensures r.Success? ==> 0.0 <= r.value.score <= 1.0 && r.value.metric == metric
    ensures 0 < |a| == |b| && metric == "cosine" ==> r == Success(SimilarityScore(Clamp(Cos(sqrt, a, b)), metric))
    ensures 0 < |a| == |b| && metric == "euclidean" ==> r == Success(SimilarityScore(DistanceScore(Euclid(sqrt, a, b)), metric))
    ensures 0 < |a| == |b| && metric == "manhattan" ==> r == Success(SimilarityScore(DistanceScore(Manhattan(a, b)), metric))
  {
    if |a| == 0 || |b| == 0 then
      Success(SimilarityScore(0.0, metric))
    else if |a| != |b| then
      Failure(VectorLengthMismatch(|a|, |b|))
    else if !KnownMetric(metric) then
      Failure(UnknownMetric(metric))
    else
      var score :=
        if metric == "cosine" then Cos(sqrt, a, b)
        else if metric == "euclidean" then DistanceScore(Euclid(sqrt, a, b))
        else DistanceScore(Manhattan(a, b));
      if metric == "euclidean" then
        DistanceScoreRange(Euclid(sqrt, a, b));
        Success(SimilarityScore(Clamp(score), metric))
      else if metric == "manhattan" then
        DistanceScoreRange(Manhattan(a, b));
        Success(SimilarityScore(Clamp(score), metric))
      else
        Success(SimilarityScore(Clamp(score), metric))
  }

  /**
   * `calculateBatchSimilarity`: `calculateSimilarity` against every candidate
   * in order; the first candidate that throws decides the error.
   */
  function CalculateBatchSimilarity(sqrt: real -> real, a: Vector, bs: seq<Vector>, metric: string := "cosine"): (r: Result<seq<SimilarityScore>, Error>)
    requires IsSqrt(sqrt)
    ensures r.Success? <==> forall i :: 0 <= i < |bs| ==> CalculateSimilarity(sqrt, a, bs[i], metric).Success?
    ensures r.Success? ==> |r.value| == |bs|
    ensures r.Success? ==> forall i :: 0 <= i < |bs| ==> CalculateSimilarity(sqrt, a, bs[i], metric) == Success(r.value[i])
    ensures r.Failure? ==> exists i :: 0 <= i < |bs| && CalculateSimilarity(sqrt, a, bs[i], metric) == Failure(r.error)
                                     && forall j :: 0 <= j < i ==> CalculateSimilarity(sqrt, a, bs[j], metric).Success?
  {
    if |bs| == 0 then Success([])
    else
      var first := CalculateSimilarity(sqrt, a, bs[0], metric);
      if first.Failure? then
        Failure(first.error)
      else
        var rest := CalculateBatchSimilarity(sqrt, a, bs[1..], metric);
        assert forall i :: 1 <= i < |bs| ==> bs[i] == bs[1..][i - 1];
        if rest.Failure? then
          var k :| 0 <= k < |bs| - 1 && CalculateSimilarity(sqrt, a, bs[1..][k], metric) == Failure(rest.error)
                   && forall j :: 0 <= j < k ==> CalculateSimilarity(sqrt, a, bs[1..][j], metric).Success?;
          assert CalculateSimilarity(sqrt, a, bs[k + 1], metric) == Failure(rest.error);
          Failure(rest.error)
        else
          Success([first.value] + rest.value)
  }

  /** Identical non-empty vectors score exactly 1 under both distances, and under cosine when not all zero. */
  lemma IdenticalVectorsScoreOne(sqrt: real -> real, a: Vector, metric: string)
    requires IsSqrt(sqrt)
    requires 0 < |a| && KnownMetric(metric)
    requires metric == "cosine" ==> !AllZero(a)
    ensures CalculateSimilarity(sqrt, a, a, metric) == Success(SimilarityScore(1.0, metric))
  {
    if metric == "cosine" {
      CosSelf(sqrt, a);
    } else if metric == "euclidean" {
      EuclidProperties(sqrt, a, a);
      DistanceScoreRange(Euclid(sqrt, a, a));
    } else {
      ManhattanProperties(a, a);
      DistanceScoreRange(Manhattan(a, a));
    }
  }

  /** On vectors of equal length the score does not depend on the argument order. */
  lemma CalculateSimilaritySymmetric(sqrt: real -> real, a: Vector, b: Vector, metric: string)
    requires IsSqrt(sqrt)
    requires |a| == |b|
    ensures CalculateSimilarity(sqrt, a, b, metric) == CalculateSimilarity(sqrt, b, a, metric)
  {
    if 0 < |a| {
      CosSymmetric(sqrt, a, b);
      EuclidProperties(sqrt, a, b);
      ManhattanProperties(a, b);
    }
  }
}

=== FILE: strings.dfy ===
/**
 * The JavaScript string operations the recommendation core relies on:
 * `includes`, `toLowerCase`, `trim`, `parseInt(_, 10)`, number-to-text for
 * error messages, and the default ordering used by `Array.prototype.sort`.
 */
module Strings {
  import opened Wrappers

  // ---------------------------------------------------------------------
  // includes
  // ---------------------------------------------------------------------

  /** `s.includes(k)`: `k` occurs as a contiguous block of `s` (the empty string always does). */
  predicate Contains(s: string, k: string) {
    exists i | 0 <= i <= |s| - |k| :: OccursAt(s, k, i)
  }

  /** `k` starts at position `i` of `s`. */
  predicate OccursAt(s: string, k: string, i: int) {
    0 <= i <= |s| - |k| && s[i..i + |k|] == k
  }

  /** A block of the middle part of a concatenation is a block of the whole. */
  lemma ContainsInside(a: string, b: string, c: string, k: string)
    requires Contains(b, k)
    ensures Contains(a + b + c, k)
  {
    var i: int :| OccursAt(b, k, i);
    assert OccursAt(b, k, i);
    var s := a + b + c;
    assert s[|a| + i..|a| + i + |k|] == k by {
      forall j | 0 <= j < |k|
        ensures s[|a| + i + j] == k[j]
      {
        assert b[i..i + |k|][j] == b[i + j];
      }
    }
    assert OccursAt(s, k, |a| + i);
  }

  /** A string lacking one of the characters of `k` cannot contain `k`. */
  lemma MissingCharNotContained(s: string, k: string, j: int)
    requires 0 <= j < |k| && k[j] !in s
    ensures !Contains(s, k)
  {
    forall i | 0 <= i <= |s| - |k|
      ensures !OccursAt(s, k, i)
    {
      assert s[i..i + |k|][j] == s[i + j];
    }
  }

  // ---------------------------------------------------------------------
  // toLowerCase
  // ---------------------------------------------------------------------

  function LowerChar(c: char): char {
    if 'A' <= c <= 'Z' then (c as int - 'A' as int + 'a' as int) as char else c
  }

  /** `s.toLowerCase()`, restricted to the ASCII letters. */
  function Lower(s: string): (r: string)
    ensures |r| == |s|
    ensures forall i :: 0 <= i < |s| ==> r[i] == LowerChar(s[i])
  {
    seq(|s|, i requires 0 <= i < |s| => LowerChar(s[i]))
  }

  /** Lower-casing twice is lower-casing once. */
  lemma LowerIdempotent(s: string)
    ensures Lower(Lower(s)) == Lower(s)
  {
  }

  // ---------------------------------------------------------------------
  // trim
  // ---------------------------------------------------------------------

  /** The characters `String.prototype.trim` removes: JavaScript WhiteSpace and LineTerminator. */
  predicate IsJsSpace(c: char) {
    || c == '\t' || c == '\n' || c == '\U{000B}' || c == '\U{000C}' || c == '\r' || c == ' '
    || c == '\U{00A0}' || c == '\U{1680}' || ('\U{2000}' <= c <= '\U{200A}')
    || c == '\U{2028}' || c == '\U{2029}' || c == '\U{202F}' || c == '\U{205F}'
    || c == '\U{3000}' || c == '\U{FEFF}'
  }

  predicate AllSpace(s: string) {
    forall i :: 0 <= i < |s| ==> IsJsSpace(s[i])
  }

  /** Length of the run of white space at the start of `s`. */
  function LeadingSpaces(s: string): (n: nat)
    ensures n <= |s|
    ensures AllSpace(s[..n])
    ensures n < |s| ==> !IsJsSpace(s[n])
  {
    if |s| > 0 && IsJsSpace(s[0]) then
      var n := 1 + LeadingSpaces(s[1..]);
      assert s[..n] == [s[0]] + s[1..][..n - 1];
      n
    else 0
  }

  /** Length of the run of white space at the end of `s`. */
  function TrailingSpaces(s: string): (n: nat)
    ensures n <= |s|
    ensures AllSpace(s[|s| - n..])
    ensures n < |s| ==> !IsJsSpace(s[|s| - n - 1])
  {
    if |s| > 0 && IsJsSpace(s[|s| - 1]) then
      var t := s[..|s| - 1];
      var n := 1 + TrailingSpaces(t);
      assert s[|s| - n..] == t[|t| - (n - 1)..] + [s[|s| - 1]];
      n
    else 0
  }

  /** `s.trim()`: `s` without its leading and trailing white space. */
  function Trim(s: string): (r: string)
    ensures |r| == 0 <==> AllSpace(s)
    ensures |r| > 0 ==> !IsJsSpace(r[0]) && !IsJsSpace(r[|r| - 1])
    ensures exists i :: 0 <= i <= |s| - |r| && r == s[i..i + |r|]
                        && AllSpace(s[..i]) && AllSpace(s[i + |r|..])
  {
    var a := LeadingSpaces(s);
    if a == |s| then
      assert s[..a] == s;
      assert s[a..] == [];
      []
    else
      var t := TrailingSpaces(s);
      assert |s| - t > a by {
        assert forall i :: |s| - t <= i < |s| ==> s[|s| - t..][i - (|s| - t)] == s[i];
      }
      assert !AllSpace(s) by { assert !IsJsSpace(s[a]); }
      assert s[a..|s| - t][0] == s[a];
      s[a..|s| - t]
  }

  /** A string that neither starts nor ends with white space is its own trim. */
  lemma TrimUntrimmed(s: string)
    requires |s| > 0 && !IsJsSpace(s[0]) && !IsJsSpace(s[|s| - 1])
    ensures Trim(s) == s
  {
    assert LeadingSpaces(s) == 0 && TrailingSpaces(s) == 0;
    assert s[0..|s|] == s;
  }

  /** The trimmed string is a block of the original. */
  lemma TrimContained(s: string)
    ensures Contains(s, Trim(s))
  {
    var r := Trim(s);
    var i :| 0 <= i <= |s| - |r| && r == s[i..i + |r|] && AllSpace(s[..i]) && AllSpace(s[i + |r|..]);
    assert OccursAt(s, r, i);
  }

  /** Trimming twice is trimming once. */
  lemma TrimIdempotent(s: string)
    ensures Trim(Trim(s)) == Trim(s)
  {
    if |Trim(s)| > 0 {
      TrimUntrimmed(Trim(s));
    }
  }

  // ---------------------------------------------------------------------
  // parseInt(_, 10) and number rendering
  // ---------------------------------------------------------------------

  predicate IsDigit(c: char) { '0' <= c <= '9' }

  predicate AllDigits(s: string) {
    forall i :: 0 <= i < |s| ==> IsDigit(s[i])
  }

  function DigitValue(c: char): nat
    requires IsDigit(c)
  {
    c as int - '0' as int
  }

  function DigitChar(d: nat): (c: char)
    requires d < 10
    ensures IsDigit(c) && DigitValue(c) == d
  {
    ('0' as int + d) as char
  }

  /** Length of the run of decimal digits at the start of `s`. */
  function LeadingDigits(s: string): (n: nat)
    ensures n <= |s|
    ensures AllDigits(s[..n])
    ensures n < |s| ==> !IsDigit(s[n])
  {
    if |s| > 0 && IsDigit(s[0]) then
      var n := 1 + LeadingDigits(s[1..]);
      assert s[..n] == [s[0]] + s[1..][..n - 1];
      n
    else 0
  }

  /** The value of a string of decimal digits, most significant first. */
  function DigitsValue(d: string): nat
    requires AllDigits(d)
  {
    if |d| == 0 then 0 else 10 * DigitsValue(d[..|d| - 1]) + DigitValue(d[|d| - 1])
  }

  /**
   * `parseInt(s, 10)`: skip leading white space, read an optional sign and the
   * longest run of decimal digits; `None` stands for NaN (no digits at all).
   */
  function ParseInt(s: string): (r: Option<int>)
  {
    var t := s[LeadingSpaces(s)..];
    var negative := |t| > 0 && t[0] == '-';
    var u := if |t| > 0 && (t[0] == '-' || t[0] == '+') then t[1..] else t;
    var n := LeadingDigits(u);
    if n == 0 then None
    else
      var v: int := DigitsValue(u[..n]);
      Some(if negative then -v else v)
  }

  /** Decimal rendering of a natural number, as a template literal prints it. */
  function NatToString(n: nat): (s: string)
    ensures |s| > 0 && AllDigits(s)
  {
    if n < 10 then [DigitChar(n)] else NatToString(n / 10) + [DigitChar(n % 10)]
  }

  lemma {:induction false} DigitsValueOfNatToString(n: nat)
    ensures DigitsValue(NatToString(n)) == n
  {
    if n >= 10 {
      DigitsValueOfNatToString(n / 10);
      var s := NatToString(n);
      assert s[..|s| - 1] == NatToString(n / 10);
    }
  }

  /** `parseInt` reads back what `NatToString` prints, with or without a minus sign. */
  lemma ParseIntOfNatToString(n: nat)
    ensures ParseInt(NatToString(n)) == Some(n)
    ensures ParseInt("-" + NatToString(n)) == Some(-(n as int))
  {
    var s := NatToString(n);
    DigitsValueOfNatToString(n);
    assert !IsJsSpace(s[0]);
    assert s[LeadingSpaces(s)..] == s;
    assert LeadingDigits(s) == |s|;
    assert s[..|s|] == s;
    var m := "-" + s;
    assert m[LeadingSpaces(m)..] == m;
    assert m[1..] == s;
  }

  // ---------------------------------------------------------------------
  // Default sort order of strings
  // ---------------------------------------------------------------------

  /** Strict lexicographic order by character code, the default order of `Array.prototype.sort`. */
  predicate Below(a: string, b: string)
    decreases |a|
  {
    0 < |b| && (|a| == 0 || a[0] < b[0] || (a[0] == b[0] && Below(a[1..], b[1..])))
  }

  lemma {:induction false} BelowIrreflexive(a: string)
    ensures !Below(a, a)
    decreases |a|
  {
    if 0 < |a| {
      BelowIrreflexive(a[1..]);
    }
  }

  lemma {:induction false} BelowTransitive(a: string, b: string, c: string)
    requires Below(a, b) && Below(b, c)
    ensures Below(a, c)
    decreases |a|
  {
    if 0 < |a| && a[0] == b[0] && b[0] == c[0] {
      BelowTransitive(a[1..], b[1..], c[1..]);
    }
  }

  lemma {:induction false} BelowTotal(a: string, b: string)
    requires a != b
    ensures Below(a, b) || Below(b, a)
    decreases |a|
  {
    if 0 < |a| && 0 < |b| && a[0] == b[0] {
      assert a == [a[0]] + a[1..] && b == [b[0]] + b[1..];
      BelowTotal(a[1..], b[1..]);
    }
  }

  lemma BelowAsymmetric(a: string, b: string)
    requires Below(a, b)
    ensures !Below(b, a)
  {
    if Below(b, a) {
      BelowTransitive(a, b, a);
      BelowIrreflexive(a);
    }
  }

  /** Strictly increasing, hence also free of duplicates. */
  predicate StrictlySorted(s: seq<string>) {
    forall i, j :: 0 <= i < j < |s| ==> Below(s[i], s[j])
  }

  lemma StrictlySortedDistinct(s: seq<string>)
    requires StrictlySorted(s)
    ensures forall i, j :: 0 <= i < j < |s| ==> s[i] != s[j]
  {
    forall i, j | 0 <= i < j < |s|
      ensures s[i] != s[j]
    {
      BelowIrreflexive(s[i]);
    }
  }

  /**
   * A set of strings has exactly one strictly sorted listing: any two such
   * listings of the same elements are equal.
   */
  lemma {:induction false} StrictlySortedUnique(s: seq<string>, t: seq<string>)
    requires StrictlySorted(s) && StrictlySorted(t)
    requires forall x :: x in s <==> x in t
    ensures s == t
    decreases |s|
  {
    if |s| > 0 {
      assert s[0] in t;
    }
    if |t| > 0 {
      assert t[0] in s;
    }
    if |s| > 0 && |t| > 0 {
      var k :| 0 <= k < |t| && t[k] == s[0];
      var m :| 0 <= m < |s| && s[m] == t[0];
      if 0 < k {
        if 0 < m {
          BelowAsymmetric(s[0], s[m]);
        } else {
          BelowIrreflexive(t[0]);
        }
      }
      assert s[0] == t[0];
      forall x
        ensures x in s[1..] <==> x in t[1..]
      {
        if x in s[1..] {
          var p :| 1 <= p < |s| && s[p] == x;
          BelowIrreflexive(s[0]);
          assert x != s[0];
          assert x in t;
        }
        if x in t[1..] {
          var p :| 1 <= p < |t| && t[p] == x;
          BelowIrreflexive(t[0]);
          assert x != t[0];
          assert x in s;
        }
      }
      StrictlySortedUnique(s[1..], t[1..]);
      assert s == [s[0]] + s[1..];
      assert t == [t[0]] + t[1..];
    }
  }
}

=== FILE: validation.dfy ===
/**
 * The API's request validators: they turn raw query and body values into
 * a limit, metric, genre weights, title, movie ids and fusion ratio, or
 * fail with a validation error. The utilities are part of the API, but its
 * controller does not call them: it parses and checks the request itself
 * and passes the values to the recommendation modes directly.
 *
 * A raw value is a `JsValue`: its `String(...)` text and its `Number(...)`
 * reading. A value that may be missing or of the wrong shape is an `Option`.
 */
module Validation {
  import opened Wrappers
  import opened Errors
  import opened SeqUtil
  import opened Strings
  import opened Records
  import opened JsValues

  const DefaultLimit: int := 12
  const MinLimit: int := 1
  const MaxLimit: int := 50

  // ---------------------------------------------------------------------
  // validateLimit
  // ---------------------------------------------------------------------

  /**
   * `parseInt(String(limit), 10) || defaultLimit`: the parsed number, unless
   * parsing gives NaN or 0, which are falsy.
   */
  function RequestedLimit(text: string, defaultLimit: int): (p: int)
    ensures ParseInt(text).Some? && ParseInt(text).value != 0 ==> p == ParseInt(text).value
    ensures ParseInt(text).None? || ParseInt(text) == Some(0) ==> p == defaultLimit
  {
    match ParseInt(text)
    case Some(n) => if n == 0 then defaultLimit else n
    case None => defaultLimit
  }

  /**
   * `validateLimit`: the requested limit, or the default when that is NaN
   * or 0, then `Math.min(Math.max(parsed, min), max)`: kept when within
   * [min, max], otherwise the nearer bound.
   */
  function ValidateLimit(limit: JsValue, defaultLimit: int := DefaultLimit, minLimit: int := MinLimit, maxLimit: int := MaxLimit)
    : (r: int)
    ensures r <= maxLimit
    ensures minLimit <= maxLimit ==> minLimit <= r <= maxLimit
    ensures ParseInt(limit.text).Some? && ParseInt(limit.text).value != 0 && minLimit <= ParseInt(limit.text).value <= maxLimit
            ==> r == ParseInt(limit.text).value
    ensures (ParseInt(limit.text).None? || ParseInt(limit.text) == Some(0)) && minLimit <= defaultLimit <= maxLimit
            ==> r == defaultLimit
    ensures var p := RequestedLimit(limit.text, defaultLimit);
            && (minLimit <= p <= maxLimit ==> r == p)
            && (minLimit <= maxLimit && p < minLimit ==> r == minLimit)
            && (minLimit <= maxLimit && maxLimit < p ==> r == maxLimit)
    ensures maxLimit < minLimit ==> r == maxLimit
  {
    Min(Max(RequestedLimit(limit.text, defaultLimit), minLimit), maxLimit)
  }

  /** Clamping is monotonic: a larger requested limit never gives a smaller one. */
  lemma ValidateLimitMonotonic(a: JsValue, b: JsValue)
    requires ParseInt(a.text).Some? && ParseInt(b.text).Some?
    requires 0 < ParseInt(a.text).value <= ParseInt(b.text).value
    ensures ValidateLimit(a) <= ValidateLimit(b)
  {
  }

  /** A limit rendered as decimal text reads back clamped to [1, 50]: in range it is kept exactly. */
  lemma ValidateLimitOfText(n: nat, number: JsNumber)
    ensures ValidateLimit(JsValue(NatToString(n), number)) == if n == 0 then DefaultLimit else Min(Max(n, MinLimit), MaxLimit)
  {
    ParseIntOfNatToString(n);
  }

  /** A negative decimal limit gives the minimum; `-0` is falsy and gives the default. */
  lemma ValidateLimitOfNegativeText(n: nat, number: JsNumber)
    ensures ValidateLimit(JsValue("-" + NatToString(n), number)) == if n == 0 then DefaultLimit else MinLimit
  {
    ParseIntOfNatToString(n);
  }

  // ---------------------------------------------------------------------
  // validateMetric
  // ---------------------------------------------------------------------

  predicate KnownMetric(metric: string) {
    metric == "cosine" || metric == "euclidean" || metric == "manhattan"
  }

  /** `validateMetric`: the lower-cased text when it names a metric, `"cosine"` otherwise. */
  function ValidateMetric(metric: JsValue): (r: string)
    ensures KnownMetric(r)
    ensures KnownMetric(Lower(metric.text)) ==> r == Lower(metric.text)
    ensures !KnownMetric(Lower(metric.text)) ==> r == "cosine"
  {
    var normalized := Lower(metric.text);
    if KnownMetric(normalized) then normalized else "cosine"
  }

  /** Upper and lower case do not matter, and a validated metric validates to itself. */
  lemma ValidateMetricCaseInsensitive(metric: JsValue, number: JsNumber)
    ensures ValidateMetric(JsValue(Lower(metric.text), number)) == ValidateMetric(metric)
    ensures ValidateMetric(JsValue(ValidateMetric(metric), number)) == ValidateMetric(metric)
  {
    LowerIdempotent(metric.text);
    var r := ValidateMetric(metric);
    assert Lower(r) == r by {
      assert Lower("cosine") == "cosine";
      assert Lower("euclidean") == "euclidean";
      assert Lower("manhattan") == "manhattan";
    }
  }

  // ---------------------------------------------------------------------
  // validateWeights
  // ---------------------------------------------------------------------

  /**
   * An entry passes: a genre name that is not blank (`trim()` leaves
   * something exactly when the name is not all white space) and a weight
   * that reads as a number >= 0.
   */
  predicate EntryValid(entry: (string, JsValue)) {
    && !AllSpace(entry.0)
    && entry.1.number.Finite? && entry.1.number.value >= 0.0
  }

  /** The error for an entry that does not pass: the name is checked before the weight. */
  function EntryError(entry: (string, JsValue)): (e: Error)
    ensures e.IsValidation()
  {
    if AllSpace(entry.0) then InvalidGenreName(entry.0) else InvalidWeight(entry.0, entry.1.text)
  }

  /** The `for ... of Object.entries(weights)` loop: the first entry that does not pass decides the error. */
  function ValidateEntries(entries: Record<JsValue>): (r: Result<Record<real>, Error>)
    ensures r.Success? <==> forall i :: 0 <= i < |entries| ==> EntryValid(entries[i])
    ensures r.Success? ==> |r.value| == |entries|
    ensures r.Success? ==> forall i :: 0 <= i < |entries| ==>
              r.value[i].0 == entries[i].0 && r.value[i].1 == entries[i].1.number.value && 0.0 <= r.value[i].1
    ensures r.Failure? ==> exists i :: 0 <= i < |entries| && !EntryValid(entries[i]) && r.error == EntryError(entries[i])
                                     && forall j :: 0 <= j < i ==> EntryValid(entries[j])
  {
    if |entries| == 0 then Success([])
    else if !EntryValid(entries[0]) then Failure(EntryError(entries[0]))
    else
      assert forall i :: 1 <= i < |entries| ==> entries[i] == entries[1..][i - 1];
      match ValidateEntries(entries[1..])
      case Success(rest) =>
        var r := [(entries[0].0, entries[0].1.number.value)] + rest;
        assert forall i :: 1 <= i < |r| ==> r[i] == rest[i - 1];
        Success(r)
      case Failure(e) =>
        var k :| 0 <= k < |entries| - 1 && !EntryValid(entries[1..][k]) && e == EntryError(entries[1..][k])
                 && forall j :: 0 <= j < k ==> EntryValid(entries[1..][j]);
        assert entries[k + 1] == entries[1..][k];
        Failure(e)
  }

  /** `validateWeights`: a missing or empty object is rejected before any entry is looked at. */
  function ValidateWeights(weights: Option<Record<JsValue>>): (r: Result<Record<real>, Error>)
    ensures weights.None? || |weights.value| == 0 ==> r == Failure(EmptyWeights)
    ensures weights.Some? && |weights.value| > 0 ==> r == ValidateEntries(weights.value)
    ensures r.Success? ==> weights.Some? && |r.value| == |weights.value| > 0
    ensures r.Failure? ==> r.error.IsValidation()
  {
    if weights.None? || |weights.value| == 0 then Failure(EmptyWeights)
    else ValidateEntries(weights.value)
  }

  /** Validated weights keep the keys in order, so they are still a proper object, and every weight is >= 0. */
  lemma ValidateWeightsKeys(weights: Record<JsValue>)
    requires DistinctKeys(weights)
    requires ValidateWeights(Some(weights)).Success?
    ensures DistinctKeys(ValidateWeights(Some(weights)).value)
    ensures forall g :: HasKey(ValidateWeights(Some(weights)).value, g) <==> HasKey(weights, g)
    ensures forall i :: 0 <= i < |weights| ==> Get(ValidateWeights(Some(weights)).value, weights[i].0) == Some(weights[i].1.number.value)
  {
    var r := ValidateWeights(Some(weights)).value;
    forall g
      ensures HasKey(r, g) <==> HasKey(weights, g)
    {
      if HasKey(r, g) {
        var i :| 0 <= i < |r| && r[i].0 == g;
        assert weights[i].0 == g;
      }
      if HasKey(weights, g) {
        var i :| 0 <= i < |weights| && weights[i].0 == g;
        assert r[i].0 == g;
      }
    }
  }

  // ---------------------------------------------------------------------
  // validateTitle
  // ---------------------------------------------------------------------

  /**
   * `validateTitle`: `None` stands for a value that is not a string; the
   * empty string is rejected with the same error, a blank one with its own.
   */
  function ValidateTitle(title: Option<string>): (r: Result<string, Error>)
    ensures title.None? || title == Some("") ==> r == Failure(TitleNotString)
    ensures title.Some? && title.value != "" && AllSpace(title.value) ==> r == Failure(TitleBlank)
    ensures r.Success? <==> title.Some? && !AllSpace(title.value)
    ensures r.Success? ==> |r.value| > 0 && !IsJsSpace(r.value[0]) && !IsJsSpace(r.value[|r.value| - 1])
    ensures r.Success? ==> Contains(title.value, r.value)
    ensures r.Success? ==> r.value == Trim(title.value)
  {
    if title.None? || title.value == "" then Failure(TitleNotString)
    else
      var trimmed := Trim(title.value);
      TrimContained(title.value);
      if |trimmed| == 0 then Failure(TitleBlank) else Success(trimmed)
  }

  /** A validated title passes validation again unchanged. */
  lemma ValidateTitleIdempotent(title: string)
    requires !AllSpace(title)
    ensures ValidateTitle(Some(ValidateTitle(Some(title)).value)) == ValidateTitle(Some(title))
  {
    TrimIdempotent(title);
  }

  // ---------------------------------------------------------------------
  // validateMovieIds
  // ---------------------------------------------------------------------

  /** `Number(id)` is an integer greater than 0. */
  predicate IdValid(id: JsValue) {
    id.number.IsInteger() && id.number.value > 0.0
  }

  /** The `map` over the ids from position `offset` on: the first invalid one, with its index, decides the error. */
  function ValidateIdsFrom(ids: seq<JsValue>, offset: nat): (r: Result<seq<int>, Error>)
    ensures r.Success? <==> forall i :: 0 <= i < |ids| ==> IdValid(ids[i])
    ensures r.Success? ==> |r.value| == |ids|
    ensures r.Success? ==> forall i :: 0 <= i < |ids| ==> r.value[i] as real == ids[i].number.value && r.value[i] > 0
    ensures r.Failure? ==> exists i :: 0 <= i < |ids| && !IdValid(ids[i]) && r.error == InvalidMovieId(offset + i, ids[i].text)
                                     && forall j :: 0 <= j < i ==> IdValid(ids[j])
    decreases |ids|
  {
    if |ids| == 0 then Success([])
    else if !IdValid(ids[0]) then Failure(InvalidMovieId(offset, ids[0].text))
    else
      assert forall i :: 1 <= i < |ids| ==> ids[i] == ids[1..][i - 1];
      match ValidateIdsFrom(ids[1..], offset + 1)
      case Success(rest) => Success([ids[0].number.value.Floor] + rest)
      case Failure(e) =>
        var k :| 0 <= k < |ids| - 1 && !IdValid(ids[1..][k]) && e == InvalidMovieId(offset + 1 + k, ids[1..][k].text)
                 && forall j :: 0 <= j < k ==> IdValid(ids[1..][j]);
        assert ids[k + 1] == ids[1..][k];
        Failure(e)
  }

  /** `validateMovieIds`: `None` stands for a value that is not an array. */
  function ValidateMovieIds(movieIds: Option<seq<JsValue>>): (r: Result<seq<int>, Error>)
    ensures movieIds.None? ==> r == Failure(IdsNotArray)
    ensures movieIds == Some([]) ==> r == Failure(NoIdsSelected)
    ensures r.Success? <==> movieIds.Some? && |movieIds.value| > 0 && forall i :: 0 <= i < |movieIds.value| ==> IdValid(movieIds.value[i])
    ensures r.Success? ==> |r.value| == |movieIds.value|
                           && forall i :: 0 <= i < |r.value| ==> r.value[i] as real == movieIds.value[i].number.value && r.value[i] > 0
    ensures r.Failure? && movieIds.Some? && |movieIds.value| > 0 ==>
              exists i :: 0 <= i < |movieIds.value| && !IdValid(movieIds.value[i])
                          && r.error == InvalidMovieId(i, movieIds.value[i].text)
                          && forall j :: 0 <= j < i ==> IdValid(movieIds.value[j])
  {
    match movieIds
    case None => Failure(IdsNotArray)
    case Some(ids) =>
      if |ids| == 0 then Failure(NoIdsSelected) else ValidateIdsFrom(ids, 0)
  }

  /** Positive whole numbers, however they are written, come back as the same ids in the same order. */
  lemma ValidateMovieIdsOfNumbers(ids: seq<JsValue>, ns: seq<nat>)
    requires 0 < |ids| == |ns|
    requires forall i :: 0 <= i < |ns| ==> 0 < ns[i] && ids[i].number == Finite(ns[i] as real)
    ensures ValidateMovieIds(Some(ids)) == Success(seq(|ns|, i requires 0 <= i < |ns| => ns[i] as int))
  {
    forall i | 0 <= i < |ns|
      ensures IdValid(ids[i])
    {
      assert (ns[i] as real).Floor == ns[i];
    }
    var r := ValidateMovieIds(Some(ids));
    var expected := seq(|ns|, i requires 0 <= i < |ns| => ns[i] as int);
    assert r.Success?;
    assert forall i :: 0 <= i < |ns| ==> r.value[i] == expected[i];
    assert r.value == expected;
  }

  // ---------------------------------------------------------------------
  // validateRatio
  // ---------------------------------------------------------------------

  /** `validateRatio`: `Number(ratio)` when it is a number in [0, 1]. */
  function ValidateRatio(ratio: JsValue): (r: Result<real, Error>)
    ensures r.Success? <==> ratio.number.Finite? && 0.0 <= ratio.number.value <= 1.0
    ensures r.Success? ==> r.value == ratio.number.value && 0.0 <= r.value <= 1.0
    ensures r.Failure? ==> r.error == RatioOutOfRange(ratio.text)
  {
    match ratio.number
    case NaN => Failure(RatioOutOfRange(ratio.text))
    case Finite(x) => if x < 0.0 || x > 1.0 then Failure(RatioOutOfRange(ratio.text)) else Success(x)
  }
}

=== FILE: wrappers.dfy ===
/** Absent values and thrown errors, as plain datatypes. */
module Wrappers {

  /** A value that may be missing (`undefined` in the source). */
  datatype Option<+T> = None | Some(value: T)

  /** The outcome of an operation that either returns a value or throws an error. */
  datatype Result<+T, +E> = Success(value: T) | Failure(error: E)
}
